=== FILE: README.md ===
# pico-ident in Dafny

A model of the Raspberry Pi Pico system-identification unit. The unit keeps
an identity record and a lid-switch edge count in an AT24CM02 I2C EEPROM. It
answers line-based commands on its serial port: `MFG=…`, `MFG?`, `CHECK?`,
`EDGECOUNT?`, `CLEAR`, `RESETCOUNT` and the like.

The model has five modules:

- `Prelude` (`prelude.dfy`): bytes (`int` in 0..255), 32-bit values, an
  option type, `FirstIn` (`find_first_of`), exact and 8-bit wrapping byte
  sums.
- `DeviceInfoString` (`device_info_string.dfy`): one 64-byte identity field
  (`DeviceInfoString` in src/DeviceInfo.h). Covers `Validate`, `Clear`,
  `Set`, `Get` and `Sum`.
- `DeviceInfoBlock` (`device_info_block.dfy`): the record of ten fields plus a
  checksum byte (`DeviceInfoBlock`). Covers validation in the source's field
  order, its 641-byte stored image, `ComputeChecksum` and `LookupField`.
- `At24cm02` (`at24cm02.dfy`): the EEPROM driver (src/AT24CM02.cpp). Covers:
  - the argument and range checks;
  - the split of a write into pieces that stay in one 256-byte page;
  - the device-address and address-byte encoding;
  - the transfers `Write` and `Read` issue, over an abstract bus that
    acknowledges or refuses each transfer, with abort at the first refusal.
- `Firmware` (`firmware.dfy`): the firmware's state logic (src/main.cpp), as
  pure step functions over a state record `(data, edgecount, last_edgecount,
  last_edge_time)`. Covers:
  - `HandleSerialMessage`;
  - start-up repair;
  - the debounced falling-edge counter;
  - the idle poll that stores a changed count;
  - the `rdbuf`/`idx` line assembler and the main loop step.

  The write-lock pin, the clock and the board id are inputs. EEPROM writes
  are `Store` requests and printed lines are `Reply` values.

The model follows the code as written:

- The count is kept in one 4-byte slot at 0x800.
- The debounce is a 50 ms lockout after each counted falling edge.
- The range check is strict. A request that ends at the last byte of the
  chip is refused, so the last byte can never be written or read.
- Start-up repair stores the repaired record without recomputing its
  checksum. A blank EEPROM therefore answers `CHECK?` with `ERR` until the
  record is next written (`BlankBoot`).
- `RESETCOUNT` ignores the write lock.
- Store failures are ignored.
- `Validate` visits USER3 before USER2.

## Model

| member | source | states |
|---|---|---|
| Prelude.FirstIn | src/DeviceInfo.h:34 | the position of the first byte of a set, or the length: no earlier byte is in the set, and the byte there is |
| Prelude.WrappingSumIsTotal | src/DeviceInfo.h:41-47 | adding bytes into an 8-bit accumulator that wraps after every addition gives the exact sum reduced modulo 256 |
| DeviceInfoString.Validate | src/DeviceInfo.h:14-20 | succeeds exactly when no byte is 0xFF, and then keeps the field; otherwise it zero-fills it; the result never holds 0xFF |
| DeviceInfoString.Clear | src/DeviceInfo.h:22-24 | every byte of the cleared field is zero |
| DeviceInfoString.Set | src/DeviceInfo.h:26-29 | copies min(len, 63) bytes to the front and zero-fills the rest, so the last byte is always a terminator |
| DeviceInfoString.Get | src/DeviceInfo.h:31-39 | a prefix of the field, at most 64 bytes, holding no 0x00 or 0xFF, ended by a 0x00 or 0xFF byte unless it is all 64 bytes |
| DeviceInfoString.Sum | src/DeviceInfo.h:41-47 | the field's 8-bit sum is the exact sum of its 64 bytes modulo 256 |
| DeviceInfoString.SetThenGet | src/DeviceInfo.h:26-39 | text without 0x00 or 0xFF reads back exactly, truncated to 63 bytes |
| DeviceInfoString.ValidateIdempotent | src/DeviceInfo.h:14-20 | a second validation succeeds and changes nothing |
| DeviceInfoString.RepairedFieldIsEmpty | src/DeviceInfo.h:14-24 | a field that needed repair reads back as empty text |
| DeviceInfoBlock.WithField | src/DeviceInfo.h:55-70 | replacing one field changes that field only and keeps the checksum |
| DeviceInfoBlock.Empty | src/main.cpp:141 | the value-initialised record: every field empty and a zero checksum |
| DeviceInfoBlock.ValidateInOrder | src/DeviceInfo.h:73-86 | walking fields in a given order with a non-short-circuit AND repairs every listed field, keeps the others and the checksum, and succeeds exactly when every listed field was clean |
| DeviceInfoBlock.Validate | src/DeviceInfo.h:73-86 | repairs each field as field validation does, keeps the checksum, and succeeds exactly when no field held 0xFF; afterwards every field is clean |
| DeviceInfoBlock.ValidateInSourceOrder | src/DeviceInfo.h:73-86 | the source's walk (USER3 before USER2) gives exactly `Validate`'s verdict and record |
| DeviceInfoBlock.ValidateIdempotent | src/DeviceInfo.h:73-86 | validating a validated record succeeds and changes nothing |
| DeviceInfoBlock.Serialize | src/DeviceInfo.h:55-70 | the 641-byte image holds field i's byte j at 64*i+j and the checksum at 640 |
| DeviceInfoBlock.Parse | src/main.cpp:59-62 | reading the image back takes field i from bytes 64*i to 64*i+63 and the checksum from byte 640 |
| DeviceInfoBlock.ParseSerialize | src/DeviceInfo.h:55-70 | parsing a record's image gives the record back |
| DeviceInfoBlock.SerializeParse | src/DeviceInfo.h:55-70 | every 641-byte image is the image of the record parsed from it |
| DeviceInfoBlock.AddFieldSumsIsTotal | src/DeviceInfo.h:89-102 | adding the fields' 8-bit sums into an 8-bit accumulator gives the exact sum of all their bytes modulo 256 |
| DeviceInfoBlock.ComputeChecksum | src/DeviceInfo.h:89-102 | the checksum is the sum of the image's first 640 bytes modulo 256 |
| DeviceInfoBlock.ChecksumIgnoresChecksumByte | src/DeviceInfo.h:67-70 | the computed checksum does not depend on the stored checksum byte |
| DeviceInfoBlock.EmptyChecksum | src/DeviceInfo.h:89-102 | the empty record's computed checksum is 0, equal to its stored one |
| DeviceInfoBlock.LookupField | src/DeviceInfo.h:104-119 | a found field's key is the key given, and a key that is some field's key is always found |
| DeviceInfoBlock.LookupKey | src/DeviceInfo.h:104-119 | each of the ten keys finds its own field |
| DeviceInfoBlock.KeysDistinct | src/DeviceInfo.h:104-119 | distinct fields have distinct keys |
| DeviceInfoBlock.LookupFieldExact | src/DeviceInfo.h:104-119 | a key finds a field exactly when it is that field's key |
| At24cm02.HighBits | src/AT24CM02.cpp:5 | the address bits above bit 17 are all clear exactly when the address is inside the chip |
| At24cm02.ArgsAccepted | src/AT24CM02.cpp:12-18 | a request passes exactly when the bus and buffer are present, the length is positive and the range ends strictly before 2^18 |
| At24cm02.AsWrittenAcceptsWrappedRanges | src/AT24CM02.cpp:16-18 | the 32-bit range check accepts every request the intended one does, plus exactly those whose end wraps past 2^32 |
| At24cm02.WrappedRangeAccepted | src/AT24CM02.cpp:16-18 | address 1 with length 2^32-1 passes the 32-bit check and fails the intended one |
| At24cm02.DeviceAddress | src/AT24CM02.cpp:27 | the 7-bit device address is 0x50, plus 4 for the A2 pin, plus address bits 16 and 17 |
| At24cm02.AddressRoundTrip | src/AT24CM02.cpp:27-31 | the device address's two low bits and the two address bytes select exactly the requested address |
| At24cm02.PieceLength | src/AT24CM02.cpp:20-24 | a piece is non-empty and no longer than what is left |
| At24cm02.Chunks | src/AT24CM02.cpp:20-51 | the page split: no pieces exactly for an empty range, and never more pieces than bytes |
| At24cm02.PieceStaysInPage | src/AT24CM02.cpp:20-24 | a piece ends in its start page, and a piece that does not finish the range ends exactly at the page end |
| At24cm02.ChunksTile | src/AT24CM02.cpp:20-51 | the pieces start at the address, follow one another without gaps, are non-empty and end at the end of the range |
| At24cm02.ChunksSumToLength | src/AT24CM02.cpp:26-51 | the pieces' lengths add up to the requested length |
| At24cm02.ChunksInRange | src/AT24CM02.cpp:26-51 | every piece lies inside the requested range |
| At24cm02.ChunksStayInPage | src/AT24CM02.cpp:20-51 | no piece crosses a 256-byte page boundary |
| At24cm02.ChunksAreMaximal | src/AT24CM02.cpp:47-51 | every piece after the first starts on a page boundary, and each is as long as its page and the range allow |
| At24cm02.ChunkCountIsPagesTouched | src/AT24CM02.cpp:20-51 | there is one piece per page the range touches |
| At24cm02.RecordImageSplit | src/AT24CM02.cpp:20-51 | the 641-byte record image at 0 is written as 256, 256 and 129 bytes |
| At24cm02.RunFrom | src/AT24CM02.cpp:33-41 | issuing from transfer k gives a prefix of the plan; success means the whole plan with every transfer from k on acknowledged; failure means the last transfer issued, beyond k, was refused |
| At24cm02.Run | src/AT24CM02.cpp:33-41 | issuing a plan gives a prefix of it; success means the whole plan with every transfer acknowledged; failure means at least one transfer was issued and the last one issued was refused |
| At24cm02.RunIsTheRun | src/AT24CM02.cpp:33-41 | issuing a plan gives the whole plan acknowledged, or a prefix ending at the first refused transfer, and no other outcome |
| At24cm02.RunStopsAt | src/AT24CM02.cpp:33-41 | with every transfer before the n-th acknowledged and the n-th refused, the run fails after issuing n+1 transfers |
| At24cm02.RunCompletes | src/AT24CM02.cpp:33-54 | with every transfer acknowledged, the run succeeds after issuing the whole plan |
| At24cm02.RunOfTwo | src/AT24CM02.cpp:72-82 | a two-transfer plan issues one transfer when the first is refused, and otherwise both, succeeding exactly when both are acknowledged |
| At24cm02.PlanFrom | src/AT24CM02.cpp:26-52 | the plan has two transfers per remaining piece |
| At24cm02.PlanFromPiece | src/AT24CM02.cpp:27-41 | each remaining piece contributes, in order, the select of its start address and then the transfer of its own bytes of the data |
| At24cm02.IssueFrom | src/AT24CM02.cpp:26-54 | issuing the remaining pieces issues at most two transfers per piece; success means all of them, every one acknowledged; failure means the last transfer issued was refused |
| At24cm02.IssueFromRuns | src/AT24CM02.cpp:26-54 | issuing pieces one by one, address select then data, and stopping at the first refusal, is a run of the whole plan |
| At24cm02.IssueIsRun | src/AT24CM02.cpp:26-54 | the piece-by-piece write is `Run` of the write plan |
| At24cm02.Write | src/AT24CM02.cpp:10-55 | a refused request issues nothing and fails; an accepted one issues exactly the run of its page-split plan |
| At24cm02.WritePages | src/AT24CM02.cpp:20-54 | the loop over the pieces issues the run of the write plan, aborting at the first refused transfer |
| At24cm02.SendPiece | src/AT24CM02.cpp:27-49 | one piece goes out as an address select and a data transfer after the earlier pieces, or the write ends with what was sent |
| At24cm02.NextPiece | src/AT24CM02.cpp:47-51 | each piece is the last exactly when it reaches the range end; otherwise the next starts where it ends and takes min(rest, 256) bytes |
| At24cm02.Read | src/AT24CM02.cpp:57-83 | a refused request issues nothing; otherwise it issues the select of `addr`, and then, only if that is acknowledged, one read of `len` bytes at `addr`, succeeding exactly when both are acknowledged |
| Firmware.Assigned | src/main.cpp:116-118 | the assigned field holds `Set(value)`, the other fields are unchanged, and the checksum matches |
| Firmware.Assign | src/main.cpp:99-120 | an assignment stores exactly when the lock is off, the header is a field and the value is printable; it then stores the record with that field set, otherwise nothing changes |
| Firmware.Query | src/main.cpp:121-136 | a field query answers the field's text, SERIAL the board id, CHECK `OK` exactly when the stored checksum matches and `ERR` otherwise, EDGECOUNT the count; nothing is answered exactly when the header is none of these |
| Firmware.ProtocolKeysAreNoFields | src/main.cpp:123-135 | SERIAL, CHECK and EDGECOUNT name no field, so a field lookup never shadows them |
| Firmware.Command | src/main.cpp:137-149 | only CLEAR with the lock off changes the record; CLEAR with the lock on and a word other than CLEAR or RESETCOUNT do nothing at all |
| Firmware.Header | src/main.cpp:95-96 | the header is the prefix before the first `=` or `?`, or the whole message |
| Firmware.HandleSerialMessage | src/main.cpp:88-150 | an empty message does nothing, and only RESETCOUNT changes the count |
| Firmware.CommandMessage | src/main.cpp:95-149 | a non-empty message holding no `=` or `?` is handled as the command it names |
| Firmware.QueryMessage | src/main.cpp:95-136 | a message `<h>?<rest>` whose header holds no `=` or `?` is answered by the query of `h` and changes nothing |
| Firmware.AssignMessage | src/main.cpp:95-120 | a message `<h>=<v>` whose header holds no `=` or `?` is the assignment of `v` to `h` |
| Firmware.AssignThenQuery | src/main.cpp:99-136 | `<key>=<value>` with the lock off stores the record with a matching checksum, and `<key>?` then prints the value truncated to 63 bytes |
| Firmware.LockedRecordIsKept | src/main.cpp:99-149 | with the write lock on, no message changes the record or stores it |
| Firmware.QueriesAreReadOnly | src/main.cpp:121-136 | a query changes no state and stores nothing |
| Firmware.ClearEmptiesRecord | src/main.cpp:139-143 | CLEAR with the lock off empties every field, zeroes the checksum, leaves it matching, and stores the record |
| Firmware.ResetCountIgnoresLock | src/main.cpp:144-148 | RESETCOUNT zeroes the count and the stored count and stores 0 whether or not the lock is on |
| Firmware.Boot | src/main.cpp:181-196 | the record after start-up is the image as read with its erased fields emptied: fields that were clean are kept as read, every field is clean, and the checksum byte is as read; a blank count is 0, the stored count equals the count, and the repairs made are stored |
| Firmware.BlankBoot | src/main.cpp:181-190 | a blank EEPROM boots to empty fields with checksum byte 0xFF (so `CHECK?` is ERR) and count 0, and stores both |
| Firmware.RebootIsQuiet | src/main.cpp:181-196 | booting again from what a boot left repairs and stores nothing and restores the same state |
| Firmware.OnFallingEdge | src/main.cpp:199-209 | an edge is counted, with 32-bit wrap, exactly when 50 ms have passed since the last counted edge, and its time is recorded; otherwise nothing changes |
| Firmware.CountedEdgesAdvanceTime | src/main.cpp:199-209 | over any sequence of edges, each counted edge moves the last counted time on by at least 50 ms |
| Firmware.CountedEdgesAdvanceCount | src/main.cpp:199-209 | over any sequence of edges, the 32-bit count advances by the number of counted edges modulo 2^32 |
| Firmware.CountedEdgesAreSpaced | src/main.cpp:199-209 | over any sequence of edges, the number counted times 50 ms is at most how far the last counted time advanced, and the count advances by the number counted modulo 2^32 (by exactly that number when it does not wrap) |
| Firmware.LastEdgeTimeIsAnEdge | src/main.cpp:199-209 | the last counted time is the starting one or the time of one of the edges |
| Firmware.Flush | src/main.cpp:216-220 | a timed-out poll stores the count exactly when it differs from the stored one, and afterwards they are equal |
| Firmware.FlushIdempotent | src/main.cpp:216-220 | a second timed-out poll stores nothing |
| Firmware.CString | src/main.cpp:225-227 | the message is the buffer's bytes before its first zero |
| Firmware.Receive | src/main.cpp:224-231 | a return hands over a message and resets the position; a printable byte is stored at the position, which advances modulo 512; other bytes are dropped |
| Firmware.HoldsStep | src/main.cpp:228-231 | storing a printable byte keeps the buffer holding the line grown by that byte |
| Firmware.FeedHolds | src/main.cpp:224-231 | after printable bytes from position 0, the position is the line length modulo 512 and the buffer before it holds the line's last that many bytes |
| Firmware.ReturnDeliversLine | src/main.cpp:224-227 | a return hands over the line's bytes after its last wrap |
| Firmware.ShortLineArrivesWhole | src/main.cpp:211-231 | a printable line shorter than 512 bytes, ended with a return, arrives whole |
| Firmware.Poll | src/main.cpp:214-232 | a timeout keeps the record, count and line, stores the count exactly when it differs from the stored one and makes them equal, as `Flush` does; a byte other than return only goes to the line assembler; a return resets the position and hands the buffer's text up to it to `HandleSerialMessage`, whose effect is the poll's |
| Firmware.PollCharsFeeds | src/main.cpp:214-231 | polls receiving bytes other than a return change no state and only feed the line assembler |
| Firmware.PollHandlesLine | src/main.cpp:211-231 | a printable line under 512 bytes polled in from the start of a line and ended with a return is handled exactly as typed |
| Firmware.StoreRequestsFitTheChip | src/main.cpp:37-82 | both store requests pass the driver's checks; the record goes out in pieces of 256, 256 and 129 bytes and the count in one |
| Firmware.QueryTextAsWritten | src/main.cpp:124 | the printed text is the record image from the field's offset up to the first zero byte after it, holding no zero; there is no text exactly when no zero byte follows inside the image |
| Firmware.UnterminatedFieldOverruns | src/main.cpp:124 | a valid record whose MFG fills 64 bytes prints MFG followed by NAME's text, while `Get` is the 64 bytes |
| Firmware.TerminatedFieldPrintsText | src/main.cpp:124 | a clean field holding a terminator prints exactly its `Get` text |

## Left out

- The I2C calls are a `Transport`: whether each transfer is acknowledged. A transfer fails only when the call returns `PICO_ERROR_GENERIC`. Other SDK error codes, bus timing, and the bytes moved are not modelled.
- The 10 ms `sleep_ms` after each page write is not modelled. Nor is the clock, except as the `now` inputs.
- Transfers name the memory address they concern. Their wire form is `DeviceAddress`, `AddressHigh` and `AddressLow`, proved separately (`AddressRoundTrip`). The model does not attach those bytes to each transfer.
- At24cm02.Write: the C buffer is trusted to hold `len` bytes. The model states this as a precondition, because the C code cannot check it.
- At24cm02.Read: the bytes read into the caller's buffer are not modelled, only the transfers and the verdict.
- Boot: the record image and the count are taken as the values the start-up reads return. A failed read, which leaves the zero-initialised or uninitialised memory, is not modelled.
- The count's byte order in the EEPROM is not modelled. The count is stored and loaded as a 32-bit value.
- `printf` formatting: replies are `Text` bytes or a `Decimal` value, without the newline.
- `pico_get_unique_board_id_string`: `SERIAL?` prints an opaque `boardId` input.
- Concurrency between the edge interrupt and the main loop, and `volatile`: the interrupt is a separate step function on the state.
- `absolute_time_t` is an unbounded integer of microseconds. Its 64-bit range is not modelled.
- GPIO set-up, `bi_decl` metadata, `stdio_init_all` and I2C initialisation are not modelled. src/main.c, an older flash-based build, is not part of this model.
- Firmware.Query and the main loop answer a field query with `Get`'s text, not with what `printf("%s")` prints (see Findings).
- At24cm02.Write and At24cm02.Read use the range check without 32-bit wrap-around (see Findings).

## Findings

| source | as written | input that shows it | evidently intended | confidence | as-written member | corrected member |
|---|---|---|---|---|---|---|
| src/AT24CM02.cpp:16-18 | `addr + len` is a 32-bit sum, so a length near 2^32 wraps it to a small value that passes the range check; the same holds at src/AT24CM02.cpp:62-64 | addr = 1, len = 0xFFFFFFFF: the sum wraps to 0 and the request is accepted | reject every request whose range does not end before 2^18 | medium, not executed | At24cm02.ArgsAcceptedAsWritten (exhibited by At24cm02.WrappedRangeAccepted and At24cm02.AsWrittenAcceptsWrappedRanges) | At24cm02.ArgsAccepted, used by At24cm02.Write and At24cm02.Read |
| src/main.cpp:124 | a field query prints `Get().data()` with `%s`, which stops at the first zero byte and ignores the length `Get` computed | a record whose MFG holds 64 bytes 'A' and no terminator, with NAME = "B": `MFG?` prints 64 'A's followed by "B" | print the field's text as `Get` returns it | medium, not executed | Firmware.QueryTextAsWritten (exhibited by Firmware.UnterminatedFieldOverruns) | Firmware.Query, proved by Firmware.AssignThenQuery and Firmware.TerminatedFieldPrintsText |

=== FILE: at24cm02.dfy ===
/**
 * The AT24CM02 EEPROM driver (src/AT24CM02.cpp): 1024 pages of 256 bytes
 * behind an I2C bus. A request is checked, turned into a plan of bus
 * transfers, and the transfers are issued in order until one fails.
 *
 * The bus itself is not modelled: a `Transport` says whether the k-th
 * transfer issued (counting from 0) is acknowledged.
 */
module At24cm02 {
  import opened Prelude

  const Pages: nat := 1024
  const BytesPerPage: nat := 256

  /** Bytes on the chip: 2^18, so an address has 18 significant bits. */
  const Capacity: nat := Pages * BytesPerPage

  /** A driver instance: whether its bus pointer is non-null, and the level of its A2 address pin. */
  datatype Eeprom = Eeprom(busPresent: bool, addrPin: bool)

  /**
   * One transfer on the bus, for the chip whose A2 pin is `pin`, concerning
   * memory address `at`. On the wire each goes to the 7-bit device address
   * `DeviceAddress(pin, at)`; a `SetAddress` sends the two bytes
   * `AddressHigh(at)` and `AddressLow(at)` without a stop condition.
   */
  datatype Transfer =
    | SetAddress(pin: bool, at: nat)                    // select memory address `at`
    | WriteData(pin: bool, at: nat, data: seq<Byte>)    // payload written from the selected address
    | ReadData(pin: bool, at: nat, count: nat)          // `count` bytes read from the selected address

  /** Whether the k-th transfer issued is acknowledged. */
  type Transport = nat -> bool

  /** What a request did: its verdict and the transfers it issued, in order. */
  datatype Outcome = Outcome(ok: bool, issued: seq<Transfer>)

  // ---------------------------------------------------------------------
  // Argument checks

  /**
   * The bits of `addr` above bit 17, shifted down: `addr / 2^18`. It is zero
   * exactly when `addr & ~kAddrMask` is, with `kAddrMask == (1 << 18) - 1`.
   */
  function HighBits(addr: U32): (bits: nat)
    ensures bits == 0 <==> addr < Capacity
  {
    addr / 0x4_0000
  }

  /**
   * The checks `Write` and `Read` make before touching the bus. The range
   * test is strict, so a range that ends exactly at the end of the chip (and
   * therefore any range covering the last byte) is refused.
   */
  function ArgsAccepted(dev: Eeprom, addr: U32, hasBuf: bool, len: U32): (ok: bool)
    ensures ok <==> dev.busPresent && hasBuf && 0 < len && addr + len < Capacity
  {
    if !dev.busPresent || !hasBuf || len == 0 || HighBits(addr) != 0 then false
    else !(addr + len >= Capacity)
  }

  /**
   * The range check as the source evaluates it: `addr + len` is a 32-bit
   * sum, so a length close to 2^32 wraps it round to a small value that
   * passes the test.
   */
  function ArgsAcceptedAsWritten(dev: Eeprom, addr: U32, hasBuf: bool, len: U32): bool {
    if !dev.busPresent || !hasBuf || len == 0 || HighBits(addr) != 0 then false
    else !((addr + len) % U32Modulus >= Capacity)
  }

  /** One byte at address 1 with a length of 2^32 - 1 passes the check as written. */
  lemma WrappedRangeAccepted()
    ensures ArgsAcceptedAsWritten(Eeprom(true, false), 1, true, 0xFFFF_FFFF)
    ensures !ArgsAccepted(Eeprom(true, false), 1, true, 0xFFFF_FFFF)
  {
  }

  /**
   * The check as written accepts more than the intended one, and exactly the
   * requests whose end wraps past 2^32; without wrap-around the two agree.
   */
  lemma AsWrittenAcceptsWrappedRanges(dev: Eeprom, addr: U32, hasBuf: bool, len: U32)
    ensures ArgsAccepted(dev, addr, hasBuf, len) ==> ArgsAcceptedAsWritten(dev, addr, hasBuf, len)
    ensures ArgsAcceptedAsWritten(dev, addr, hasBuf, len) && !ArgsAccepted(dev, addr, hasBuf, len)
            <==> dev.busPresent && hasBuf && addr < Capacity && addr + len >= U32Modulus
  {
    if addr + len >= U32Modulus {
      assert (addr + len) % U32Modulus == addr + len - U32Modulus;
    }
  }

  // ---------------------------------------------------------------------
  // Address encoding

  /**
   * The 7-bit device address of a transfer at `addr`: the 8-bit form
   * `0xA0 | A2 << 3 | addr >> 15` shifted right by one (the 7-bit target
   * address of section 3.1.10 of the NXP I2C-bus specification UM10204).
   * For an address inside the chip the three parts occupy disjoint bits
   * (0xA0: bits 7 and 5; A2: bit 3; `addr >> 15`: bits 0 to 2), so the OR
   * is written as their sum and the shifts as division and multiplication.
   * The two low bits of the result carry memory-address bits 16 and 17.
   */
  function DeviceAddress(pin: bool, addr: U32): (dev: nat)
    requires addr < Capacity
    ensures dev < 0x80
    ensures dev == 0x50 + (if pin then 4 else 0) + addr / 0x1_0000
  {
    var pinBit := if pin then 1 else 0;
    (0xA0 + pinBit * 8 + addr / 0x8000) / 2
  }

  /** First address byte, `(addr & 0xFF00) >> 8`: memory-address bits 8 to 15. */
  function AddressHigh(addr: U32): Byte {
    addr % 0x1_0000 / 0x100
  }

  /** Second address byte, `addr & 0xFF`: memory-address bits 0 to 7. */
  function AddressLow(addr: U32): Byte {
    addr % 0x100
  }

  /** The memory address a device address and two address bytes select on the chip. */
  function SelectedAddress(dev: nat, high: Byte, low: Byte): nat {
    (dev % 4) * 0x1_0000 + high * 0x100 + low
  }

  /** The encoding loses nothing: the chip selects exactly the requested address. */
  lemma AddressRoundTrip(pin: bool, addr: U32)
    requires addr < Capacity
    ensures SelectedAddress(DeviceAddress(pin, addr), AddressHigh(addr), AddressLow(addr)) == addr
    ensures DeviceAddress(pin, addr) / 4 == 0x14 + (if pin then 1 else 0)
  {
  }

  // ---------------------------------------------------------------------
  // Page split

  /** A run of `len` consecutive bytes starting at `start`. */
  datatype Chunk = Chunk(start: nat, len: nat)

  function PageOf(a: int): int {
    a / BytesPerPage
  }

  function SumLengths(cs: seq<Chunk>): nat {
    if cs == [] then 0 else cs[0].len + SumLengths(cs[1..])
  }

  /**
   * `cs` tiles `[addr, addr + len)`: the first piece starts at `addr`, each
   * starts where the previous one ends, the last ends at `addr + len`, and
   * none is empty.
   */
  predicate Tiles(cs: seq<Chunk>, addr: nat, len: nat) {
    && (len == 0 <==> cs == [])
    && (len > 0 ==> cs[0].start == addr && cs[|cs| - 1].start + cs[|cs| - 1].len == addr + len)
    && (forall i :: 0 <= i < |cs| ==> 0 < cs[i].len)
    && (forall i :: 0 < i < |cs| ==> cs[i].start == cs[i - 1].start + cs[i - 1].len)
  }

  predicate WithinRange(cs: seq<Chunk>, addr: nat, len: nat) {
    forall i :: 0 <= i < |cs| ==> addr <= cs[i].start && cs[i].start + cs[i].len <= addr + len
  }

  /** No piece crosses a page boundary: its first and last byte share a page. */
  predicate NoPageCrossing(cs: seq<Chunk>) {
    forall i :: 0 <= i < |cs| ==> PageOf(cs[i].start + cs[i].len - 1) == PageOf(cs[i].start)
  }

  /**
   * Every piece after the first starts on a page boundary, and every piece
   * is as long as it can be: it stops only at the end of its page or of the
   * range.
   */
  predicate Maximal(cs: seq<Chunk>, addr: nat, len: nat) {
    && (forall i :: 0 < i < |cs| ==> cs[i].start % BytesPerPage == 0)
    && (forall i :: 0 <= i < |cs| ==>
          cs[i].len == Min(addr + len - cs[i].start, BytesPerPage - cs[i].start % BytesPerPage))
  }

  /**
   * How much of `[addr, addr + len)` one page write can take: the rest of
   * `addr`'s page, or the whole range when it is shorter (`page_remain`).
   */
  function PieceLength(addr: nat, len: nat): (n: nat)
    requires 0 < len
    ensures 0 < n <= len
  {
    Min(len, BytesPerPage - addr % BytesPerPage)
  }

  /**
   * A piece ends in the page it starts on, and a piece that does not finish
   * the range ends exactly at the end of that page.
   */
  lemma PieceStaysInPage(addr: nat, len: nat)
    requires 0 < len
    ensures var n := PieceLength(addr, len);
      && PageOf(addr + n - 1) == PageOf(addr)
      && (n < len ==> (addr + n) % BytesPerPage == 0 && PageOf(addr + n) == PageOf(addr) + 1)
  {
    var p := PageOf(addr);
    assert addr == p * BytesPerPage + addr % BytesPerPage;
  }

  /**
   * The pieces `Write` cuts `[addr, addr + len)` into, in order: each takes
   * as much of the remaining range as fits in the page it starts on.
   */
  function Chunks(addr: nat, len: nat): (cs: seq<Chunk>)
    ensures len == 0 <==> cs == []
    ensures |cs| <= len
    decreases len
  {
    if len == 0 then []
    else
      var n := PieceLength(addr, len);
      [Chunk(addr, n)] + Chunks(addr + n, len - n)
  }

  /**
   * The pieces tile the range: the first starts at `addr`, each starts where
   * the previous one ends, the last ends at `addr + len`, and none is empty.
   */
  lemma {:induction false} ChunksTile(addr: nat, len: nat)
    ensures Tiles(Chunks(addr, len), addr, len)
    decreases len
  {
    if len > 0 {
      var n := PieceLength(addr, len);
      var cs, rest := Chunks(addr, len), Chunks(addr + n, len - n);
      assert cs == [Chunk(addr, n)] + rest;
      ChunksTile(addr + n, len - n);
      if n < len {
        assert cs[|cs| - 1] == rest[|rest| - 1];
        assert cs[1] == rest[0];
        forall i | 1 < i < |cs|
          ensures 0 < cs[i].len
          ensures cs[i].start == cs[i - 1].start + cs[i - 1].len
        {
          assert cs[i] == rest[i - 1] && cs[i - 1] == rest[i - 2];
        }
      }
    }
  }

  /** The pieces' lengths add up to the requested length. */
  lemma {:induction false} ChunksSumToLength(addr: nat, len: nat)
    ensures SumLengths(Chunks(addr, len)) == len
    decreases len
  {
    if len > 0 {
      var n := PieceLength(addr, len);
      var rest := Chunks(addr + n, len - n);
      assert Chunks(addr, len) == [Chunk(addr, n)] + rest;
      ChunksSumToLength(addr + n, len - n);
      assert ([Chunk(addr, n)] + rest)[1..] == rest;
    }
  }

  /** Every piece lies inside the requested range. */
  lemma {:induction false} ChunksInRange(addr: nat, len: nat)
    ensures WithinRange(Chunks(addr, len), addr, len)
    decreases len
  {
    if len > 0 {
      var n := PieceLength(addr, len);
      var cs, rest := Chunks(addr, len), Chunks(addr + n, len - n);
      assert cs == [Chunk(addr, n)] + rest;
      ChunksInRange(addr + n, len - n);
      forall i | 0 < i < |cs|
        ensures addr <= cs[i].start && cs[i].start + cs[i].len <= addr + len
      {
        assert cs[i] == rest[i - 1];
      }
    }
  }

  /** No piece crosses a page boundary. */
  lemma {:induction false} ChunksStayInPage(addr: nat, len: nat)
    ensures NoPageCrossing(Chunks(addr, len))
    decreases len
  {
    if len > 0 {
      var n := PieceLength(addr, len);
      var cs, rest := Chunks(addr, len), Chunks(addr + n, len - n);
      assert cs == [Chunk(addr, n)] + rest;
      ChunksStayInPage(addr + n, len - n);
      forall i | 0 < i < |cs|
        ensures PageOf(cs[i].start + cs[i].len - 1) == PageOf(cs[i].start)
      {
        assert cs[i] == rest[i - 1];
      }
    }
  }

  /** The split is greedy: see `Maximal`. */
  lemma {:induction false} ChunksAreMaximal(addr: nat, len: nat)
    ensures Maximal(Chunks(addr, len), addr, len)
    decreases len
  {
    if len > 0 {
      var n := PieceLength(addr, len);
      var cs, rest := Chunks(addr, len), Chunks(addr + n, len - n);
      assert cs == [Chunk(addr, n)] + rest;
      ChunksAreMaximal(addr + n, len - n);
      PieceStaysInPage(addr, len);
      forall i | 0 <= i < |cs|
        ensures 0 < i ==> cs[i].start % BytesPerPage == 0
        ensures cs[i].len == Min(addr + len - cs[i].start, BytesPerPage - cs[i].start % BytesPerPage)
      {
        if i == 1 {
          FirstPiece(addr + n, len - n);
          assert cs[1] == rest[0];
        } else if i > 1 {
          assert cs[i] == rest[i - 1];
        }
      }
    }
  }

  /** A split makes exactly one piece per page the range touches. */
  lemma {:induction false} ChunkCountIsPagesTouched(addr: nat, len: nat)
    requires 0 < len
    ensures |Chunks(addr, len)| == PageOf(addr + len - 1) - PageOf(addr) + 1
    decreases len
  {
    var n := PieceLength(addr, len);
    assert Chunks(addr, len) == [Chunk(addr, n)] + Chunks(addr + n, len - n);
    if n < len {
      ChunkCountIsPagesTouched(addr + n, len - n);
    }
  }

  /** The identity record's 641-byte image written at address 0 goes out as 256, 256 and 129 bytes. */
  lemma RecordImageSplit()
    ensures Chunks(0, 641) == [Chunk(0, 256), Chunk(256, 256), Chunk(512, 129)]
  {
    assert PieceLength(0, 641) == 256;
    assert PieceLength(256, 385) == 256;
    assert PieceLength(512, 129) == 129;
    assert Chunks(641, 0) == [];
  }

  // ---------------------------------------------------------------------
  // Issuing transfers

  /**
   * Issues `plan` from transfer `k` on, in order, stopping at the first one
   * the bus does not acknowledge.
   */
  function RunFrom(plan: seq<Transfer>, bus: Transport, k: nat): (r: Outcome)
    requires k <= |plan|
    ensures |r.issued| <= |plan| && r.issued == plan[..|r.issued|]
    ensures r.ok ==> r.issued == plan && forall i :: k <= i < |plan| ==> bus(i)
    ensures !r.ok ==> k < |r.issued| && !bus(|r.issued| - 1)
    decreases |plan| - k
  {
    if k == |plan| then Outcome(true, plan)
    else if !bus(k) then Outcome(false, plan[..k + 1])
    else RunFrom(plan, bus, k + 1)
  }

  /** Issues a whole plan, aborting at the first unacknowledged transfer. */
  function Run(plan: seq<Transfer>, bus: Transport): (r: Outcome)
    ensures |r.issued| <= |plan| && r.issued == plan[..|r.issued|]
    ensures r.ok ==> r.issued == plan && forall i :: 0 <= i < |plan| ==> bus(i)
    ensures !r.ok ==> 0 < |r.issued| && !bus(|r.issued| - 1)
  {
    RunFrom(plan, bus, 0)
  }

  /**
   * `r` is what issuing `plan` gives when its transfer `i` is the bus's
   * transfer `first + i`: the whole plan, all acknowledged, or a non-empty
   * prefix of it whose transfers are acknowledged except the last.
   */
  predicate IsRunOf(r: Outcome, plan: seq<Transfer>, bus: Transport, first: nat) {
    && |r.issued| <= |plan| && r.issued == plan[..|r.issued|]
    && (forall k :: first <= k < first + |r.issued| - 1 ==> bus(k))
    && (r.ok ==> r.issued == plan && forall k :: first <= k < first + |plan| ==> bus(k))
    && (!r.ok ==> 0 < |r.issued| && !bus(first + |r.issued| - 1))
  }

  lemma {:induction false} RunFromStopsAt(plan: seq<Transfer>, bus: Transport, k: nat, n: nat)
    requires k <= n < |plan|
    requires forall j :: k <= j < n ==> bus(j)
    requires !bus(n)
    ensures RunFrom(plan, bus, k) == Outcome(false, plan[..n + 1])
    decreases n - k
  {
    if k < n {
      RunFromStopsAt(plan, bus, k + 1, n);
    }
  }

  lemma {:induction false} RunFromCompletes(plan: seq<Transfer>, bus: Transport, k: nat)
    requires k <= |plan|
    requires forall j :: k <= j < |plan| ==> bus(j)
    ensures RunFrom(plan, bus, k) == Outcome(true, plan)
    decreases |plan| - k
  {
    if k < |plan| {
      RunFromCompletes(plan, bus, k + 1);
    }
  }

  /** A run that meets its first failure at transfer `n` has issued exactly `plan[..n + 1]`. */
  lemma RunStopsAt(plan: seq<Transfer>, bus: Transport, n: nat)
    requires n < |plan|
    requires forall j :: 0 <= j < n ==> bus(j)
    requires !bus(n)
    ensures Run(plan, bus) == Outcome(false, plan[..n + 1])
  {
    RunFromStopsAt(plan, bus, 0, n);
  }

  /** A run whose every transfer is acknowledged issues the whole plan and succeeds. */
  lemma RunCompletes(plan: seq<Transfer>, bus: Transport)
    requires forall j :: 0 <= j < |plan| ==> bus(j)
    ensures Run(plan, bus) == Outcome(true, plan)
  {
    RunFromCompletes(plan, bus, 0);
  }

  /** Run either completes or stops at its first unacknowledged transfer. */
  lemma {:induction false} RunFromCases(plan: seq<Transfer>, bus: Transport, k: nat)
    requires k <= |plan|
    requires forall j :: 0 <= j < k ==> bus(j)
    ensures IsRunOf(RunFrom(plan, bus, k), plan, bus, 0)
    decreases |plan| - k
  {
    if k < |plan| && bus(k) {
      AckExtends(bus, k);
      RunFromCases(plan, bus, k + 1);
    }
  }

  /** `Run` is the one outcome that meets `IsRunOf`. */
  lemma RunIsTheRun(r: Outcome, plan: seq<Transfer>, bus: Transport)
    ensures IsRunOf(r, plan, bus, 0) <==> r == Run(plan, bus)
  {
    RunFromCases(plan, bus, 0);
    if IsRunOf(r, plan, bus, 0) {
      if r.ok {
        RunCompletes(plan, bus);
      } else {
        RunStopsAt(plan, bus, |r.issued| - 1);
      }
    }
  }

  /** A two-transfer plan: stop after the first, stop after the second, or complete. */
  lemma RunOfTwo(plan: seq<Transfer>, bus: Transport)
    requires |plan| == 2
    ensures Run(plan, bus) ==
      if !bus(0) then Outcome(false, plan[..1])
      else if !bus(1) then Outcome(false, plan)
      else Outcome(true, plan)
  {
    if !bus(0) {
      RunStopsAt(plan, bus, 0);
    } else if !bus(1) {
      RunStopsAt(plan, bus, 1);
      assert plan[..2] == plan;
    } else {
      RunCompletes(plan, bus);
    }
  }

  /** One more acknowledged transfer extends an acknowledged prefix. */
  lemma AckExtends(bus: Transport, n: nat)
    requires forall k :: 0 <= k < n ==> bus(k)
    requires bus(n)
    ensures forall k :: 0 <= k < n + 1 ==> bus(k)
  {
  }

  // ---------------------------------------------------------------------
  // Write and Read

  /** The bytes of `data` that piece `c` of a write at `addr` carries. */
  function PieceBytes(addr: nat, data: seq<Byte>, c: Chunk): seq<Byte>
    requires addr <= c.start && c.start + c.len <= addr + |data|
  {
    data[c.start - addr .. c.start - addr + c.len]
  }

  /** The two transfers that write piece `c`: select its start address, then send its bytes. */
  function PieceTransfers(pin: bool, addr: nat, data: seq<Byte>, c: Chunk): seq<Transfer>
    requires addr <= c.start && c.start + c.len <= addr + |data|
  {
    [SetAddress(pin, c.start), WriteData(pin, c.start, PieceBytes(addr, data, c))]
  }

  /** The transfers that write pieces `j..` of `cs`, in order. */
  function PlanFrom(pin: bool, addr: nat, data: seq<Byte>, cs: seq<Chunk>, j: nat): (plan: seq<Transfer>)
    requires j <= |cs| && WithinRange(cs, addr, |data|)
    ensures |plan| == 2 * (|cs| - j)
    decreases |cs| - j
  {
    if j == |cs| then []
    else PieceTransfers(pin, addr, data, cs[j]) + PlanFrom(pin, addr, data, cs, j + 1)
  }

  /**
   * Piece `j + i` contributes transfers `2 * i` and `2 * i + 1` of the plan
   * from piece `j`: the select of its start, then its bytes.
   */
  lemma {:induction false} PlanFromPiece(pin: bool, addr: nat, data: seq<Byte>, cs: seq<Chunk>, j: nat, i: nat)
    requires j + i < |cs| && WithinRange(cs, addr, |data|)
    ensures PlanFrom(pin, addr, data, cs, j)[2 * i] == SetAddress(pin, cs[j + i].start)
    ensures PlanFrom(pin, addr, data, cs, j)[2 * i + 1]
            == WriteData(pin, cs[j + i].start, PieceBytes(addr, data, cs[j + i]))
    decreases i
  {
    if i > 0 {
      PlanFromPiece(pin, addr, data, cs, j + 1, i - 1);
    }
  }

  /** Every transfer `Write` should issue for `data` at `addr`: two per piece of the page split. */
  function WritePlan(pin: bool, addr: nat, data: seq<Byte>): (plan: seq<Transfer>)
    ensures |plan| == 2 * |Chunks(addr, |data|)|
  {
    ChunksInRange(addr, |data|);
    PlanFrom(pin, addr, data, Chunks(addr, |data|), 0)
  }

  /** `r` with `prefix` issued before it. */
  function After(prefix: seq<Transfer>, r: Outcome): Outcome {
    Outcome(r.ok, prefix + r.issued)
  }

  lemma AfterAfter(a: seq<Transfer>, b: seq<Transfer>, r: Outcome)
    ensures After(a, After(b, r)) == After(a + b, r)
  {
    assert a + (b + r.issued) == (a + b) + r.issued;
  }

  /**
   * Issues pieces `j..` of `cs` one after another, piece `j` being the bus's
   * transfers `2 * j` and `2 * j + 1`: each piece's address select and then
   * its bytes, stopping at the first transfer not acknowledged.
   */
  function IssueFrom(pin: bool, addr: nat, data: seq<Byte>, cs: seq<Chunk>, j: nat, bus: Transport): (r: Outcome)
    requires j <= |cs| && WithinRange(cs, addr, |data|)
    ensures |r.issued| <= 2 * (|cs| - j)
    ensures r.ok ==> |r.issued| == 2 * (|cs| - j) && forall k :: 2 * j <= k < 2 * |cs| ==> bus(k)
    ensures !r.ok ==> 0 < |r.issued| && !bus(2 * j + |r.issued| - 1)
    decreases |cs| - j
  {
    if j == |cs| then Outcome(true, [])
    else
      var piece := PieceTransfers(pin, addr, data, cs[j]);
      if !bus(2 * j) then Outcome(false, piece[..1])
      else if !bus(2 * j + 1) then Outcome(false, piece)
      else After(piece, IssueFrom(pin, addr, data, cs, j + 1, bus))
  }

  /**
   * A two-transfer piece that is acknowledged, followed by a run of `rest`,
   * is a run of the piece and `rest` together.
   */
  lemma RunAfterPiece(piece: seq<Transfer>, rest: seq<Transfer>, tail: Outcome, bus: Transport, n: nat)
    requires |piece| == 2 && bus(n) && bus(n + 1)
    requires IsRunOf(tail, rest, bus, n + 2)
    ensures IsRunOf(After(piece, tail), piece + rest, bus, n)
  {
    assert (piece + rest)[..2 + |tail.issued|] == piece + rest[..|tail.issued|];
    forall k | n <= k < n + 2 + |tail.issued| - 1
      ensures bus(k)
    {
      if k >= n + 2 {
        assert n + 2 <= k < n + 2 + |tail.issued| - 1;
      }
    }
    if tail.ok {
      forall k | n <= k < n + |piece + rest|
        ensures bus(k)
      {
        if k >= n + 2 {
          assert n + 2 <= k < n + 2 + |rest|;
        }
      }
    }
  }

  /** A piece whose select or data transfer is refused ends the run there. */
  lemma RunStopsInPiece(piece: seq<Transfer>, rest: seq<Transfer>, bus: Transport, n: nat)
    requires |piece| == 2 && (!bus(n) || !bus(n + 1))
    ensures IsRunOf(Outcome(false, if !bus(n) then piece[..1] else piece), piece + rest, bus, n)
  {
    assert (piece + rest)[..2] == piece;
    assert (piece + rest)[..1] == piece[..1];
  }

  /** Issuing the pieces one by one is issuing their plan with the abort rule of `Run`. */
  lemma {:induction false} IssueFromRuns(pin: bool, addr: nat, data: seq<Byte>, cs: seq<Chunk>, j: nat, bus: Transport)
    requires j <= |cs| && WithinRange(cs, addr, |data|)
    ensures IsRunOf(IssueFrom(pin, addr, data, cs, j, bus), PlanFrom(pin, addr, data, cs, j), bus, 2 * j)
    decreases |cs| - j
  {
    if j < |cs| {
      var piece := PieceTransfers(pin, addr, data, cs[j]);
      var rest := PlanFrom(pin, addr, data, cs, j + 1);
      if bus(2 * j) && bus(2 * j + 1) {
        IssueFromRuns(pin, addr, data, cs, j + 1, bus);
        RunAfterPiece(piece, rest, IssueFrom(pin, addr, data, cs, j + 1, bus), bus, 2 * j);
      } else {
        RunStopsInPiece(piece, rest, bus, 2 * j);
      }
    }
  }

  /** The write loop's outcome is the plan run with `Run`'s abort rule. */
  lemma IssueIsRun(pin: bool, addr: nat, data: seq<Byte>, bus: Transport)
    ensures WithinRange(Chunks(addr, |data|), addr, |data|)
    ensures IssueFrom(pin, addr, data, Chunks(addr, |data|), 0, bus) == Run(WritePlan(pin, addr, data), bus)
  {
    ChunksInRange(addr, |data|);
    var cs := Chunks(addr, |data|);
    IssueFromRuns(pin, addr, data, cs, 0, bus);
    RunIsTheRun(IssueFrom(pin, addr, data, cs, 0, bus), WritePlan(pin, addr, data), bus);
  }

  /**
   * Writes the first `len` bytes of `buf` at `addr`: the argument checks,
   * then the page-by-page transfers of `WritePages`.
   */
  method Write(dev: Eeprom, addr: U32, buf: Option<seq<Byte>>, len: U32, bus: Transport)
    returns (r: Outcome)
    requires buf.Some? ==> len <= |buf.value|
    ensures !ArgsAccepted(dev, addr, buf.Some?, len) ==> r == Outcome(false, [])
    ensures ArgsAccepted(dev, addr, buf.Some?, len) ==>
      r == Run(WritePlan(dev.addrPin, addr, buf.value[..len]), bus)
  {
    if !dev.busPresent || buf.None? || len == 0 || HighBits(addr) != 0 {
      return Outcome(false, []);
    }
    if addr + len >= Capacity {
      return Outcome(false, []);
    }
    r := WritePages(dev.addrPin, addr, buf.value[..len], bus);
  }

  /**
   * Walks the range one piece at a time, selecting the piece's address and
   * sending its bytes, and gives up at the first transfer the bus does not
   * acknowledge; pieces already written stay written. The 10 ms settle
   * delay after each piece is not modelled.
   */
  method WritePages(pin: bool, addr: U32, data: seq<Byte>, bus: Transport) returns (r: Outcome)
    requires 0 < |data| && addr + |data| < Capacity
    ensures r == Run(WritePlan(pin, addr, data), bus)
  {
    var len := |data|;
    ghost var cs := Chunks(addr, len);
    IssueIsRun(pin, addr, data, bus);
    ghost var whole := IssueFrom(pin, addr, data, cs, 0, bus);
    FirstPiece(addr, len);

    var pageRemain: nat := BytesPerPage - addr % BytesPerPage;
    if len < pageRemain {
      pageRemain := len;
    }
    // The source advances `addr`, `buf` and `len` in place; `at` and
    // `remaining` are the first and last, and the buffer position is `at - addr`.
    var at: nat, remaining: nat := addr, len;
    var issued: seq<Transfer> := [];
    ghost var j: nat := 0;
    while remaining > 0
      invariant 0 <= j <= |cs| && |issued| == 2 * j
      invariant addr <= at && at + remaining == addr + len
      invariant j == |cs| <==> remaining == 0
      invariant j < |cs| ==> cs[j] == Chunk(at, pageRemain)
      invariant whole == After(issued, IssueFrom(pin, addr, data, cs, j, bus))
      decreases remaining
    {
      NextChunk(addr, len, j, at, pageRemain);
      var acked, sent := SendPiece(pin, addr, data, cs, j, at, pageRemain, issued, bus);
      if !acked {
        return Outcome(false, sent);
      }
      issued := sent;
      at, remaining := at + pageRemain, remaining - pageRemain;
      pageRemain := Min(remaining, BytesPerPage);
      j := j + 1;
    }
    return Outcome(true, issued);
  }

  /**
   * One iteration of the write loop: piece `j` of `cs`, which is
   * `pageRemain` bytes at `at`, goes out as an address select and a data
   * transfer after the `issued` transfers of the pieces before it. Either
   * both are acknowledged and the pieces after it remain to be issued, or
   * the write ends with the transfers sent so far.
   */
  method SendPiece(pin: bool, addr: nat, data: seq<Byte>, ghost cs: seq<Chunk>, ghost j: nat,
                   at: nat, pageRemain: nat, issued: seq<Transfer>, bus: Transport)
    returns (acked: bool, sent: seq<Transfer>)
    requires WithinRange(cs, addr, |data|) && j < |cs| && cs[j] == Chunk(at, pageRemain)
    requires |issued| == 2 * j
    ensures acked ==> |sent| == 2 * j + 2
    ensures acked ==> After(issued, IssueFrom(pin, addr, data, cs, j, bus))
                      == After(sent, IssueFrom(pin, addr, data, cs, j + 1, bus))
    ensures !acked ==> After(issued, IssueFrom(pin, addr, data, cs, j, bus)) == Outcome(false, sent)
  {
    var piece := [SetAddress(pin, at), WriteData(pin, at, data[at - addr .. at - addr + pageRemain])];
    assert data[at - addr .. at - addr + pageRemain] == PieceBytes(addr, data, cs[j]);
    if !bus(|issued|) {
      return false, issued + piece[..1];
    }
    if !bus(|issued| + 1) {
      return false, issued + piece;
    }
    AfterAfter(issued, piece, IssueFrom(pin, addr, data, cs, j + 1, bus));
    return true, issued + piece;
  }

  /** The first piece starts at `addr` and runs to the end of its page or of the range. */
  lemma FirstPiece(addr: nat, len: nat)
    requires 0 < len
    ensures Chunks(addr, len)[0] == Chunk(addr, Min(len, BytesPerPage - addr % BytesPerPage))
  {
  }

  /**
   * Piece `j` lies in the range and is not empty; it is the last piece
   * exactly when it reaches the end of the range, and otherwise the next
   * piece starts where it ends and is as long as the rest of the range
   * allows, up to a page.
   */
  lemma NextPiece(addr: nat, len: nat, j: nat)
    requires j < |Chunks(addr, len)|
    ensures var cs := Chunks(addr, len);
      && addr <= cs[j].start && cs[j].start + cs[j].len <= addr + len && 0 < cs[j].len
      && (j + 1 == |cs| <==> cs[j].start + cs[j].len == addr + len)
      && (j + 1 < |cs| ==>
            cs[j + 1].start == cs[j].start + cs[j].len
            && cs[j + 1].len == Min(addr + len - cs[j + 1].start, BytesPerPage))
  {
    var cs := Chunks(addr, len);
    ChunksTile(addr, len);
    ChunksInRange(addr, len);
    ChunksAreMaximal(addr, len);
    if j + 1 < |cs| {
      assert cs[j + 1].start == cs[j].start + cs[j].len;
      assert cs[j + 1].start % BytesPerPage == 0;
      assert cs[j + 1].start + cs[j + 1].len <= addr + len;
    }
  }

  /** `NextPiece` for the piece at `at` of `pageRemain` bytes, in the write loop's terms. */
  lemma NextChunk(addr: nat, len: nat, j: nat, at: nat, pageRemain: nat)
    requires j < |Chunks(addr, len)| && Chunks(addr, len)[j] == Chunk(at, pageRemain)
    ensures addr <= at && at + pageRemain <= addr + len && 0 < pageRemain
    ensures j + 1 == |Chunks(addr, len)| <==> at + pageRemain == addr + len
    ensures j + 1 < |Chunks(addr, len)| ==>
      Chunks(addr, len)[j + 1] == Chunk(at + pageRemain, Min(addr + len - (at + pageRemain), BytesPerPage))
  {
    NextPiece(addr, len, j);
  }

  /** The transfers `Read` issues: select `addr`, then read `len` bytes in one go. */
  function ReadPlan(pin: bool, addr: U32, len: nat): seq<Transfer> {
    [SetAddress(pin, addr), ReadData(pin, addr, len)]
  }

  /**
   * Reads `len` bytes at `addr` into a buffer that is present or null: the
   * same checks as `Write`, then one address transfer and one read of the
   * whole length, with no split at page boundaries.
   */
  function Read(dev: Eeprom, addr: U32, hasBuf: bool, len: U32, bus: Transport): (r: Outcome)
    ensures !ArgsAccepted(dev, addr, hasBuf, len) ==> r == Outcome(false, [])
    ensures r.ok <==> ArgsAccepted(dev, addr, hasBuf, len) && bus(0) && bus(1)
    ensures r.ok ==> |r.issued| == 2 && r.issued[1] == ReadData(dev.addrPin, addr, len)
    ensures ArgsAccepted(dev, addr, hasBuf, len) && !bus(0) ==> |r.issued| == 1
    ensures ArgsAccepted(dev, addr, hasBuf, len) ==>
      r.issued == [SetAddress(dev.addrPin, addr), ReadData(dev.addrPin, addr, len)][..if bus(0) then 2 else 1]
  {
    if !ArgsAccepted(dev, addr, hasBuf, len) then Outcome(false, [])
    else
      RunOfTwo(ReadPlan(dev.addrPin, addr, len), bus);
      Run(ReadPlan(dev.addrPin, addr, len), bus)
  }
}

=== FILE: device_info_block.dfy ===
/**
 * The identity record (`DeviceInfoBlock` in src/DeviceInfo.h): ten identity
 * fields followed by one checksum byte, stored in the EEPROM as a 641-byte
 * image with field `i` at offset `64 * i` and the checksum at offset 640.
 */
module DeviceInfoBlock {
  import opened Prelude
  import S = DeviceInfoString

  const FieldCount: nat := 10

  /** Offset of the checksum byte in the stored image: the bytes it covers. */
  const ChecksumOffset: nat := S.Size * FieldCount

  /** Size of the stored image. */
  const ImageSize: nat := ChecksumOffset + 1

  /** The ten fields, in declaration (and storage) order. */
  datatype FieldId = Mfg | Name | Ver | Date | Part | MfgSerial | User1 | User2 | User3 | User4

  type Fields = s: seq<S.Field> | |s| == FieldCount
    witness ClearFields(FieldCount)

  /** `n` empty fields. */
  function ClearFields(n: nat): (r: seq<S.Field>)
    ensures |r| == n
    ensures forall i :: 0 <= i < n ==> r[i] == S.Clear()
  {
    if n == 0 then [] else [S.Clear()] + ClearFields(n - 1)
  }

  datatype Block = Block(fields: Fields, checksum: Byte)

  /** Position of a field in the record. */
  function Index(id: FieldId): (i: nat)
    ensures i < FieldCount
  {
    match id
    case Mfg => 0
    case Name => 1
    case Ver => 2
    case Date => 3
    case Part => 4
    case MfgSerial => 5
    case User1 => 6
    case User2 => 7
    case User3 => 8
    case User4 => 9
  }

  /** The field stored at a position. */
  function IdAt(i: nat): (id: FieldId)
    requires i < FieldCount
    ensures Index(id) == i
  {
    [Mfg, Name, Ver, Date, Part, MfgSerial, User1, User2, User3, User4][i]
  }

  function FieldOf(b: Block, id: FieldId): S.Field {
    b.fields[Index(id)]
  }

  /** The record with one field replaced and everything else, checksum included, kept. */
  function WithField(b: Block, id: FieldId, f: S.Field): (r: Block)
    ensures FieldOf(r, id) == f
    ensures forall other :: other != id ==> FieldOf(r, other) == FieldOf(b, other)
    ensures r.checksum == b.checksum
  {
    b.(fields := b.fields[Index(id) := f])
  }

  /** Two records with the same fields and checksum are the same record. */
  lemma BlockExtensionality(a: Block, b: Block)
    requires forall id :: FieldOf(a, id) == FieldOf(b, id)
    requires a.checksum == b.checksum
    ensures a == b
  {
    forall i | 0 <= i < FieldCount
      ensures a.fields[i] == b.fields[i]
    {
      assert FieldOf(a, IdAt(i)) == FieldOf(b, IdAt(i));
    }
  }

  /** The record with every field byte and the checksum zero (`data = {}`). */
  function Empty(): (b: Block)
    ensures forall id :: FieldOf(b, id) == S.Clear()
    ensures b.checksum == 0
  {
    Block(ClearFields(FieldCount), 0)
  }

  // ---------------------------------------------------------------------
  // Validation

  /**
   * The order in which the source validates the fields. It differs from the
   * declaration order (USER3 comes before USER2); since each field is
   * repaired on its own, the order does not affect the outcome.
   */
  function ValidationOrder(): seq<FieldId> {
    [Mfg, Name, Ver, Date, Part, MfgSerial, User1, User3, User2, User4]
  }

  lemma ValidationOrderCoversAll(id: FieldId)
    ensures id in ValidationOrder()
  {
    match id
    case Mfg => assert ValidationOrder()[0] == id;
    case Name => assert ValidationOrder()[1] == id;
    case Ver => assert ValidationOrder()[2] == id;
    case Date => assert ValidationOrder()[3] == id;
    case Part => assert ValidationOrder()[4] == id;
    case MfgSerial => assert ValidationOrder()[5] == id;
    case User1 => assert ValidationOrder()[6] == id;
    case User3 => assert ValidationOrder()[7] == id;
    case User2 => assert ValidationOrder()[8] == id;
    case User4 => assert ValidationOrder()[9] == id;
  }

  lemma ValidationOrderCovers()
    ensures forall id :: id in ValidationOrder()
  {
    forall id
      ensures id in ValidationOrder()
    {
      ValidationOrderCoversAll(id);
    }
  }

  /**
   * Validates the fields named in `order` one after another and combines the
   * verdicts without short-circuiting (`ok &= field.Validate()`), so a field
   * that fails does not stop the later ones from being repaired.
   */
  function ValidateInOrder(b: Block, order: seq<FieldId>): (r: S.Validated<Block>)
    ensures r.value.checksum == b.checksum
    ensures forall id :: FieldOf(r.value, id) ==
                         (if id in order then S.Validate(FieldOf(b, id)).value else FieldOf(b, id))
    ensures r.ok <==> forall id :: id in order ==> S.Clean(FieldOf(b, id))
    decreases |order|
  {
    if order == [] then S.Validated(true, b)
    else
      var id := order[0];
      var v := S.Validate(FieldOf(b, id));
      var rest := ValidateInOrder(WithField(b, id, v.value), order[1..]);
      S.Validated(v.ok && rest.ok, rest.value)
  }

  /**
   * Repairs every field that holds an erased byte. Reports success exactly
   * when no field needed repair, and leaves the checksum as it was. The
   * source walks the fields in `ValidationOrder`; `ValidateInSourceOrder`
   * shows that walk gives this result.
   */
  function Validate(b: Block): (r: S.Validated<Block>)
    ensures r.value.checksum == b.checksum
    ensures forall id :: FieldOf(r.value, id) == S.Validate(FieldOf(b, id)).value
    ensures r.ok <==> forall id :: S.Clean(FieldOf(b, id))
    ensures forall id :: S.Clean(FieldOf(r.value, id))
  {
    var fields := seq(FieldCount, i requires 0 <= i < FieldCount => S.Validate(b.fields[i]).value);
    var ok := forall i | 0 <= i < FieldCount :: S.Clean(b.fields[i]);
    assert ok <== forall id :: S.Clean(FieldOf(b, id)) by {
      if forall id :: S.Clean(FieldOf(b, id)) {
        forall i | 0 <= i < FieldCount
          ensures S.Clean(b.fields[i])
        {
          assert FieldOf(b, IdAt(i)) == b.fields[i];
        }
      }
    }
    S.Validated(ok, Block(fields, b.checksum))
  }

  /**
   * Validating the fields one by one in the source's order, combining the
   * verdicts without short-circuiting, repairs and reports exactly as
   * `Validate` does.
   */
  lemma ValidateInSourceOrder(b: Block)
    ensures ValidateInOrder(b, ValidationOrder()) == Validate(b)
  {
    ValidationOrderCovers();
    var walked := ValidateInOrder(b, ValidationOrder());
    BlockExtensionality(walked.value, Validate(b).value);
  }

  /** A second validation reports success and changes nothing. */
  lemma ValidateIdempotent(b: Block)
    ensures Validate(Validate(b).value) == S.Validated(true, Validate(b).value)
  {
    var once := Validate(b).value;
    BlockExtensionality(Validate(once).value, once);
  }

  // ---------------------------------------------------------------------
  // Stored image

  /** Field bytes laid end to end. */
  function Concat(fs: seq<S.Field>): (r: seq<Byte>)
    ensures |r| == S.Size * |fs|
  {
    if fs == [] then [] else fs[0] + Concat(fs[1..])
  }

  lemma {:induction false} ConcatIndex(fs: seq<S.Field>, i: nat, j: nat)
    requires i < |fs| && j < S.Size
    ensures Concat(fs)[S.Size * i + j] == fs[i][j]
  {
    if i > 0 {
      ConcatIndex(fs[1..], i - 1, j);
    }
  }

  /** The 641-byte image the record occupies in the EEPROM. */
  function Serialize(b: Block): (image: seq<Byte>)
    ensures |image| == ImageSize
    ensures forall i, j :: 0 <= i < FieldCount && 0 <= j < S.Size ==>
      image[S.Size * i + j] == b.fields[i][j]
    ensures image[ChecksumOffset] == b.checksum
  {
    var image := Concat(b.fields) + [b.checksum];
    forall i, j | 0 <= i < FieldCount && 0 <= j < S.Size
      ensures image[S.Size * i + j] == b.fields[i][j]
    {
      ConcatIndex(b.fields, i, j);
    }
    image
  }

  /** Reads a record back from its 641-byte image. */
  function Parse(image: seq<Byte>): (b: Block)
    requires |image| == ImageSize
    ensures forall i :: 0 <= i < FieldCount ==>
      b.fields[i] == image[S.Size * i .. S.Size * i + S.Size]
    ensures b.checksum == image[ChecksumOffset]
  {
    Block(seq(FieldCount, i requires 0 <= i < FieldCount => image[S.Size * i .. S.Size * i + S.Size]),
          image[ChecksumOffset])
  }

  lemma ParseSerialize(b: Block)
    ensures Parse(Serialize(b)) == b
  {
    var image := Serialize(b);
    var p := Parse(image);
    forall i | 0 <= i < FieldCount
      ensures p.fields[i] == b.fields[i]
    {
      assert forall j :: 0 <= j < S.Size ==> p.fields[i][j] == image[S.Size * i + j];
    }
  }

  lemma SerializeParse(image: seq<Byte>)
    requires |image| == ImageSize
    ensures Serialize(Parse(image)) == image
  {
    var b := Parse(image);
    var again := Serialize(b);
    forall k | 0 <= k < ImageSize
      ensures again[k] == image[k]
    {
      if k < ChecksumOffset {
        var i, j := k / S.Size, k % S.Size;
        assert k == S.Size * i + j;
        assert again[k] == b.fields[i][j];
      }
    }
  }

  // ---------------------------------------------------------------------
  // Checksum

  /** Adds the 8-bit sums of `fs`, in order, to an 8-bit accumulator. */
  function AddFieldSums(acc: Byte, fs: seq<S.Field>): Byte
    decreases |fs|
  {
    if fs == [] then acc else AddFieldSums((acc + S.Sum(fs[0])) % 256, fs[1..])
  }

  lemma {:induction false} AddFieldSumsIsTotal(acc: Byte, fs: seq<S.Field>)
    ensures AddFieldSums(acc, fs) == (acc + Total(Concat(fs))) % 256
    decreases |fs|
  {
    if fs != [] {
      var s0 := S.Sum(fs[0]);
      AddFieldSumsIsTotal((acc + s0) % 256, fs[1..]);
      TotalAppend(fs[0], Concat(fs[1..]));
      ModAddLeft(acc + s0, Total(Concat(fs[1..])));
      ModAddLeft(Total(fs[0]), acc + Total(Concat(fs[1..])));
    }
  }

  /**
   * The checksum the record should carry: every field byte of the image,
   * summed modulo 256; the checksum byte itself is not included.
   */
  function ComputeChecksum(b: Block): (sum: Byte)
    ensures sum == Total(Serialize(b)[..ChecksumOffset]) % 256
  {
    AddFieldSumsIsTotal(0, b.fields);
    assert Serialize(b)[..ChecksumOffset] == Concat(b.fields);
    AddFieldSums(0, b.fields)
  }

  /** The empty record carries a matching checksum of zero. */
  lemma EmptyChecksum()
    ensures ComputeChecksum(Empty()) == 0 == Empty().checksum
  {
    var image := Serialize(Empty())[..ChecksumOffset];
    forall k | 0 <= k < ChecksumOffset
      ensures image[k] == 0
    {
      var i, j := k / S.Size, k % S.Size;
      assert k == S.Size * i + j;
    }
    assert image == Zeros(ChecksumOffset);
    TotalZeros(ChecksumOffset);
  }

  /** The checksum ignores the stored checksum byte. */
  lemma ChecksumIgnoresChecksumByte(b: Block, c: Byte)
    ensures ComputeChecksum(b.(checksum := c)) == ComputeChecksum(b)
  {
    assert Serialize(b.(checksum := c))[..ChecksumOffset] == Serialize(b)[..ChecksumOffset];
  }

  // ---------------------------------------------------------------------
  // Lookup by name

  /** The case-sensitive name a field is addressed by in the serial protocol. */
  function Key(id: FieldId): seq<Byte> {
    match id
    case Mfg => Ascii("MFG")
    case Name => Ascii("NAME")
    case Ver => Ascii("VER")
    case Date => Ascii("DATE")
    case Part => Ascii("PART")
    case MfgSerial => Ascii("MFGSERIAL")
    case User1 => Ascii("USER1")
    case User2 => Ascii("USER2")
    case User3 => Ascii("USER3")
    case User4 => Ascii("USER4")
  }

  /** The field a key names; `None` stands for the null pointer. */
  function LookupField(key: seq<Byte>): (r: Option<FieldId>)
    ensures r.Some? ==> Key(r.value) == key
    ensures r.None? ==> forall id :: Key(id) != key
  {
    if key == Ascii("MFG") then Some(Mfg)
    else if key == Ascii("NAME") then Some(Name)
    else if key == Ascii("VER") then Some(Ver)
    else if key == Ascii("DATE") then Some(Date)
    else if key == Ascii("PART") then Some(Part)
    else if key == Ascii("MFGSERIAL") then Some(MfgSerial)
    else if key == Ascii("USER1") then Some(User1)
    else if key == Ascii("USER2") then Some(User2)
    else if key == Ascii("USER3") then Some(User3)
    else if key == Ascii("USER4") then Some(User4)
    else None
  }

  /** Each field's key finds that field. */
  lemma LookupKey(id: FieldId)
    ensures LookupField(Key(id)) == Some(id)
  {
    match id
    case Mfg =>
    case Name =>
    case Ver => assert Key(Mfg)[0] != Key(id)[0];
    case Date => assert Key(Name)[0] != Key(id)[0];
    case Part => assert Key(Name)[0] != Key(id)[0] && Key(Date)[0] != Key(id)[0];
    case MfgSerial =>
    case User1 =>
    case User2 => assert Key(User1)[4] != Key(id)[4];
    case User3 => assert Key(User1)[4] != Key(id)[4] && Key(User2)[4] != Key(id)[4];
    case User4 =>
      assert Key(User1)[4] != Key(id)[4] && Key(User2)[4] != Key(id)[4] && Key(User3)[4] != Key(id)[4];
  }

  /** Distinct fields have distinct keys. */
  lemma KeysDistinct(a: FieldId, b: FieldId)
    requires a != b
    ensures Key(a) != Key(b)
  {
    LookupKey(a);
    LookupKey(b);
  }

  /** Every field is found by its own key, and only by it. */
  lemma LookupFieldExact(key: seq<Byte>, id: FieldId)
    ensures LookupField(key) == Some(id) <==> key == Key(id)
  {
    if key == Key(id) && LookupField(key) != Some(id) {
      KeysDistinct(LookupField(key).value, id);
    }
  }
}

=== FILE: device_info_string.dfy ===
/**
 * One identity field (`DeviceInfoString` in src/DeviceInfo.h): a fixed block
 * of 64 bytes holding at most 63 bytes of text, zero-terminated, that may come
 * back from a blank EEPROM as erased (0xFF) bytes.
 */
module DeviceInfoString {
  import opened Prelude

  /** Bytes in one field, terminator included. */
  const Size: nat := 64

  /** Longest text a field can hold; the last byte is always left as a terminator. */
  const Capacity: nat := Size - 1

  /** The value an erased EEPROM cell reads back as. */
  const Erased: Byte := 0xFF

  /** Bytes at which `Get` stops reading: the terminator and the erased value. */
  const Stops: set<Byte> := {0, Erased}

  type Field = s: seq<Byte> | |s| == Size witness Zeros(Size)

  /** A repair operation's verdict together with the (possibly repaired) value. */
  datatype Validated<T> = Validated(ok: bool, value: T)

  /** No byte of the field is the erased value. */
  predicate Clean(f: Field) {
    forall i :: 0 <= i < Size ==> f[i] != Erased
  }

  /** The field emptied: every byte zero. */
  function Clear(): (f: Field)
    ensures forall i :: 0 <= i < Size ==> f[i] == 0
  {
    Zeros(Size)
  }

  /**
   * A field containing any erased byte is taken as never written and is
   * zero-filled; a field without one is kept as it is.
   */
  function Validate(f: Field): (r: Validated<Field>)
    ensures r.ok <==> Clean(f)
    ensures r.ok ==> r.value == f
    ensures !r.ok ==> r.value == Clear()
    ensures Clean(r.value)
  {
    if Erased in f then Validated(false, Clear()) else Validated(true, f)
  }

  /**
   * Copies at most `Capacity` bytes of `s` to the front of the field and
   * zero-fills the rest, so the text is silently truncated and the last byte
   * is always a terminator.
   */
  function Set(s: seq<Byte>): (f: Field)
    ensures forall i :: 0 <= i < Min(|s|, Capacity) ==> f[i] == s[i]
    ensures forall i :: Min(|s|, Capacity) <= i < Size ==> f[i] == 0
    ensures f[Size - 1] == 0
  {
    var copied := Min(|s|, Capacity);
    s[..copied] + Zeros(Size - copied)
  }

  /**
   * The text of the field: the bytes before the first terminator or erased
   * byte, or all 64 bytes when the field holds neither.
   */
  function Get(f: Field): (text: seq<Byte>)
    ensures |text| <= Size
    ensures text == f[..|text|]
    ensures forall i :: 0 <= i < |text| ==> text[i] != 0 && text[i] != Erased
    ensures |text| < Size ==> f[|text|] == 0 || f[|text|] == Erased
  {
    f[..FirstIn(f, Stops)]
  }

  /** The field's bytes summed in an 8-bit accumulator. */
  function Sum(f: Field): (r: Byte)
    ensures r == Total(f) % 256
  {
    WrappingSumIsTotal(0, f);
    WrappingSum(0, f)
  }

  /** Text without terminator or erased bytes reads back exactly, truncated to the capacity. */
  lemma SetThenGet(s: seq<Byte>)
    requires forall i :: 0 <= i < |s| ==> s[i] != 0 && s[i] != Erased
    ensures Get(Set(s)) == s[..Min(|s|, Capacity)]
  {
    var f := Set(s);
    var k := Min(|s|, Capacity);
    assert FirstIn(f, Stops) == k by {
      FirstInAt(f, Stops, k);
    }
  }

  /** Validating a second time reports success and changes nothing. */
  lemma ValidateIdempotent(f: Field)
    ensures Validate(Validate(f).value) == Validated(true, Validate(f).value)
  {
  }

  /** A repaired field reads back as empty text. */
  lemma RepairedFieldIsEmpty(f: Field)
    requires !Validate(f).ok
    ensures Get(Validate(f).value) == []
  {
    assert Validate(f).value[0] == 0;
  }
}

=== FILE: firmware.dfy ===
/**
 * The firmware's state logic (src/main.cpp): the serial command interpreter,
 * boot-time repair of the stored record and count, the debounced edge
 * counter, the "store the count only when it changed" rule of the idle poll,
 * and the line assembler of the main loop.
 *
 * Everything the firmware does to the outside world is an input or an
 * output here: the write-lock pin, the clock and the board id are
 * parameters, EEPROM writes are `Store` requests and printed lines are
 * `Reply` values.
 */
module Firmware {
  import opened Prelude
  import S = DeviceInfoString
  import B = DeviceInfoBlock
  import E = At24cm02

  /** Where the identity record and the edge count live in the EEPROM. */
  const DeviceInfoAddr: nat := 0
  const EdgeCountAddr: nat := 0x800

  /** Bytes of the stored edge count (a `uint32_t`). */
  const CountSize: nat := 4

  /** The value a count slot of a blank EEPROM reads back as. */
  const BlankCount: U32 := 0xFFFF_FFFF

  /** Falling edges closer than this many microseconds to the last counted one are ignored. */
  const DebounceUs: int := 50_000

  /** Size of the serial line buffer `rdbuf`. */
  const BufferSize: nat := 512

  const Equals: Byte := 0x3D
  const Question: Byte := 0x3F
  const Return: Byte := 0x0D

  /** The bytes that end a message's header. */
  const Punctuation: set<Byte> := {Equals, Question}

  /**
   * The firmware's variables: the identity record, the edge count, the count
   * last written to the EEPROM, and when the last counted edge happened, in
   * microseconds.
   */
  datatype State = State(data: B.Block, edgecount: U32, lastEdgecount: U32, lastEdgeTime: int)

  /** An EEPROM write the firmware asks for; its result is ignored. */
  datatype Store =
    | StoreInfo(record: B.Block)    // the 641-byte record image at `DeviceInfoAddr`
    | StoreCount(count: U32)        // the 4-byte count at `EdgeCountAddr`

  /** A line printed on the serial port, without its newline. */
  datatype Reply =
    | Text(bytes: seq<Byte>)        // `printf("%s\n", …)`
    | Decimal(value: U32)           // `printf("%u\n", …)`

  /** What handling one event did: the new state, what was printed, what was stored. */
  datatype Effect = Effect(st: State, reply: Option<Reply>, stores: seq<Store>)

  function Quiet(st: State): Effect {
    Effect(st, None, [])
  }

  // ---------------------------------------------------------------------
  // Serial commands

  const SerialKey: seq<Byte> := Ascii("SERIAL")
  const CheckKey: seq<Byte> := Ascii("CHECK")
  const EdgeCountKey: seq<Byte> := Ascii("EDGECOUNT")
  const ClearKey: seq<Byte> := Ascii("CLEAR")
  const ResetCountKey: seq<Byte> := Ascii("RESETCOUNT")

  /** Whether the stored checksum matches the record's fields (`CHECK?`). */
  predicate ChecksumMatches(b: B.Block) {
    B.ComputeChecksum(b) == b.checksum
  }

  /** The record after `<field>=<value>`: the field set to the value and the checksum recomputed. */
  function Assigned(b: B.Block, id: B.FieldId, value: seq<Byte>): (r: B.Block)
    ensures B.FieldOf(r, id) == S.Set(value)
    ensures forall other :: other != id ==> B.FieldOf(r, other) == B.FieldOf(b, other)
    ensures ChecksumMatches(r)
  {
    var w := B.WithField(b, id, S.Set(value));
    B.ChecksumIgnoresChecksumByte(w, B.ComputeChecksum(w));
    w.(checksum := B.ComputeChecksum(w))
  }

  predicate AllPrintable(s: seq<Byte>) {
    forall i :: 0 <= i < |s| ==> IsPrint(s[i])
  }

  /**
   * An assignment: ignored while the write lock is on, for a header that
   * names no field, or for a value holding a non-printable byte; otherwise
   * the field is set, the checksum recomputed and the record stored.
   */
  function Assign(st: State, header: seq<Byte>, value: seq<Byte>, locked: bool): (r: Effect)
    ensures r.reply == None
    ensures r.stores != [] <==> !locked && B.LookupField(header).Some? && AllPrintable(value)
    ensures r.stores == [] ==> r.st == st
    ensures r.stores != [] ==>
      && r.stores == [StoreInfo(r.st.data)]
      && r.st.data == Assigned(st.data, B.LookupField(header).value, value)
      && r.st == st.(data := r.st.data)
  {
    if locked then Quiet(st)
    else match B.LookupField(header)
      case None => Quiet(st)
      case Some(id) =>
        if exists i :: 0 <= i < |value| && !IsPrint(value[i]) then Quiet(st)
        else
          var record := Assigned(st.data, id, value);
          Effect(st.(data := record), None, [StoreInfo(record)])
  }

  /** The protocol's own query words name no field. */
  lemma ProtocolKeysAreNoFields()
    ensures B.LookupField(SerialKey).None?
    ensures B.LookupField(CheckKey).None?
    ensures B.LookupField(EdgeCountKey).None?
  {
    forall id
      ensures B.Key(id) != SerialKey && B.Key(id) != CheckKey && B.Key(id) != EdgeCountKey
    {
      match id
      case Mfg =>
      case Name =>
      case Ver =>
      case Date =>
      case Part =>
      case MfgSerial => assert B.Key(id)[0] != EdgeCountKey[0];
      case User1 => assert B.Key(id)[0] != CheckKey[0];
      case User2 => assert B.Key(id)[0] != CheckKey[0];
      case User3 => assert B.Key(id)[0] != CheckKey[0];
      case User4 => assert B.Key(id)[0] != CheckKey[0];
    }
  }

  /**
   * A query: a field's text, the board id, the checksum verdict or the edge
   * count; nothing for any other header.
   */
  function Query(st: State, header: seq<Byte>, boardId: seq<Byte>): (r: Option<Reply>)
    ensures B.LookupField(header).Some? ==> r == Some(Text(S.Get(B.FieldOf(st.data, B.LookupField(header).value))))
    ensures r == None <==>
      B.LookupField(header).None? && header != SerialKey && header != CheckKey && header != EdgeCountKey
    ensures header == SerialKey ==> r == Some(Text(boardId))
    ensures header == CheckKey ==> r == Some(Text(if ChecksumMatches(st.data) then Ascii("OK") else Ascii("ERR")))
    ensures header == EdgeCountKey ==> r == Some(Decimal(st.edgecount))
  {
    ProtocolKeysAreNoFields();
    match B.LookupField(header)
    case Some(id) => Some(Text(S.Get(B.FieldOf(st.data, id))))
    case None =>
      if header == SerialKey then Some(Text(boardId))
      else if header == CheckKey then
        Some(Text(if ChecksumMatches(st.data) then Ascii("OK") else Ascii("ERR")))
      else if header == EdgeCountKey then Some(Decimal(st.edgecount))
      else None
  }

  /**
   * A command without punctuation: `CLEAR` empties the record unless the
   * write lock is on; `RESETCOUNT` zeroes the count whatever the lock says.
   */
  function Command(st: State, header: seq<Byte>, locked: bool): (r: Effect)
    ensures r.reply == None
    ensures r.st.data != st.data ==> header == ClearKey && !locked
    ensures header != ClearKey && header != ResetCountKey ==> r == Quiet(st)
    ensures header == ClearKey && locked ==> r == Quiet(st)
  {
    if header == ClearKey then
      if locked then Quiet(st)
      else Effect(st.(data := B.Empty()), None, [StoreInfo(B.Empty())])
    else if header == ResetCountKey then
      Effect(st.(edgecount := 0, lastEdgecount := 0), None, [StoreCount(0)])
    else Quiet(st)
  }

  /** The part of a message before its first `=` or `?`, or all of it. */
  function Header(msg: seq<Byte>): (h: seq<Byte>)
    ensures h <= msg
    ensures forall i :: 0 <= i < |h| ==> h[i] !in Punctuation
    ensures |h| < |msg| ==> msg[|h|] in Punctuation
  {
    msg[..FirstIn(msg, Punctuation)]
  }

  /**
   * One message from the serial port. An empty message does nothing. The
   * first `=` or `?` ends the header: `=` makes it an assignment of the rest
   * of the message, `?` a query (whatever follows is ignored), and a message
   * without either is a command.
   */
  function HandleSerialMessage(st: State, msg: seq<Byte>, locked: bool, boardId: seq<Byte>): (r: Effect)
    ensures msg == [] ==> r == Quiet(st)
    ensures r.st.edgecount != st.edgecount ==> msg == ResetCountKey
  {
    if msg == [] then Quiet(st)
    else
      var header := Header(msg);
      if |header| == |msg| then Command(st, header, locked)
      else if msg[|header|] == Equals then Assign(st, header, msg[|header| + 1..], locked)
      else Effect(st, Query(st, header, boardId), [])
  }

  /** A non-empty message without `=` or `?` is a command. */
  lemma CommandMessage(st: State, w: seq<Byte>, locked: bool, boardId: seq<Byte>)
    requires w != [] && forall i :: 0 <= i < |w| ==> w[i] !in Punctuation
    ensures HandleSerialMessage(st, w, locked, boardId) == Command(st, w, locked)
  {
    FirstInAt(w, Punctuation, |w|);
  }

  /** A message `<h>?<rest>`, with `h` free of `=` and `?`, is the query of `h` and changes nothing. */
  lemma QueryMessage(st: State, h: seq<Byte>, rest: seq<Byte>, locked: bool, boardId: seq<Byte>)
    requires forall i :: 0 <= i < |h| ==> h[i] !in Punctuation
    ensures HandleSerialMessage(st, h + [Question] + rest, locked, boardId) == Effect(st, Query(st, h, boardId), [])
  {
    var msg := h + [Question] + rest;
    FirstInAt(msg, Punctuation, |h|);
    assert msg[..|h|] == h;
  }

  /** A message `<h>=<v>`, with `h` free of `=` and `?`, is the assignment of `v` to `h`. */
  lemma AssignMessage(st: State, h: seq<Byte>, v: seq<Byte>, locked: bool, boardId: seq<Byte>)
    requires forall i :: 0 <= i < |h| ==> h[i] !in Punctuation
    ensures HandleSerialMessage(st, h + [Equals] + v, locked, boardId) == Assign(st, h, v, locked)
  {
    var msg := h + [Equals] + v;
    FirstInAt(msg, Punctuation, |h|);
    assert msg[..|h|] == h;
    assert msg[|h| + 1..] == v;
  }

  /** No key contains `=` or `?`. */
  lemma KeyHasNoPunctuation(id: B.FieldId)
    ensures forall i :: 0 <= i < |B.Key(id)| ==> B.Key(id)[i] !in Punctuation
  {
    forall i | 0 <= i < |B.Key(id)|
      ensures B.Key(id)[i] !in Punctuation
    {
      match id
      case Mfg =>
      case Name =>
      case Ver =>
      case Date =>
      case Part =>
      case MfgSerial =>
      case User1 =>
      case User2 =>
      case User3 =>
      case User4 =>
    }
  }

  /** The header of `<key><punctuation><rest>` is the key. */
  lemma HeaderOfKey(id: B.FieldId, p: Byte, rest: seq<Byte>)
    requires p in Punctuation
    ensures Header(B.Key(id) + [p] + rest) == B.Key(id)
  {
    var msg := B.Key(id) + [p] + rest;
    KeyHasNoPunctuation(id);
    FirstInAt(msg, Punctuation, |B.Key(id)|);
    assert msg[..|B.Key(id)|] == B.Key(id);
  }

  /**
   * Setting a field and then querying it, with the lock off for the
   * assignment, prints the value back, truncated to 63 bytes, and a `CHECK?`
   * afterwards would report a matching checksum.
   */
  lemma AssignThenQuery(st: State, id: B.FieldId, value: seq<Byte>, locked: bool, boardId: seq<Byte>)
    requires AllPrintable(value)
    ensures var written := HandleSerialMessage(st, B.Key(id) + [Equals] + value, false, boardId);
      && written.stores == [StoreInfo(written.st.data)]
      && ChecksumMatches(written.st.data)
      && HandleSerialMessage(written.st, B.Key(id) + [Question], locked, boardId).reply
         == Some(Text(value[..Min(|value|, S.Capacity)]))
  {
    var msg := B.Key(id) + [Equals] + value;
    HeaderOfKey(id, Equals, value);
    B.LookupKey(id);
    assert msg[|B.Key(id)| + 1..] == value;
    HeaderOfKey(id, Question, []);
    assert B.Key(id) + [Question] == B.Key(id) + [Question] + [];
    S.SetThenGet(value);
  }

  /**
   * While the write lock is on no message changes the record or stores it:
   * only `RESETCOUNT` has any effect on the state.
   */
  lemma LockedRecordIsKept(st: State, msg: seq<Byte>, boardId: seq<Byte>)
    ensures HandleSerialMessage(st, msg, true, boardId).st.data == st.data
    ensures forall s :: s in HandleSerialMessage(st, msg, true, boardId).stores ==> s.StoreCount?
  {
  }

  /** A query changes nothing and stores nothing. */
  lemma QueriesAreReadOnly(st: State, msg: seq<Byte>, locked: bool, boardId: seq<Byte>)
    requires |Header(msg)| < |msg| && msg[|Header(msg)|] == Question
    ensures HandleSerialMessage(st, msg, locked, boardId).st == st
    ensures HandleSerialMessage(st, msg, locked, boardId).stores == []
  {
  }

  /** `CLEAR` with the lock off leaves every field empty and the checksum matching. */
  lemma ClearEmptiesRecord(st: State, boardId: seq<Byte>)
    ensures var r := HandleSerialMessage(st, ClearKey, false, boardId);
      && r.st.data == B.Empty()
      && ChecksumMatches(r.st.data)
      && (forall id :: S.Get(B.FieldOf(r.st.data, id)) == [])
      && r.stores == [StoreInfo(B.Empty())]
  {
    var h := Header(ClearKey);
    assert h == ClearKey;
    B.EmptyChecksum();
    forall id
      ensures S.Get(B.FieldOf(B.Empty(), id)) == []
    {
      assert B.FieldOf(B.Empty(), id)[0] == 0;
    }
  }

  /** `RESETCOUNT` zeroes both counts and stores 0 even while the lock is on. */
  lemma ResetCountIgnoresLock(st: State, locked: bool, boardId: seq<Byte>)
    ensures HandleSerialMessage(st, ResetCountKey, locked, boardId)
            == Effect(st.(edgecount := 0, lastEdgecount := 0), None, [StoreCount(0)])
  {
    assert Header(ResetCountKey) == ResetCountKey;
  }

  // ---------------------------------------------------------------------
  // Boot

  /**
   * Start-up, given the record image and the count read back from the
   * EEPROM and the time: fields holding erased bytes are emptied and the
   * record stored again, its checksum left as read; a blank count becomes 0
   * and is stored; the stored count starts out equal to the count.
   */
  function Boot(image: seq<Byte>, loadedCount: U32, now: int): (r: Effect)
    requires |image| == B.ImageSize
    ensures r.st.data == B.Validate(B.Parse(image)).value
    ensures forall id :: S.Clean(B.FieldOf(B.Parse(image), id)) ==> B.FieldOf(r.st.data, id) == B.FieldOf(B.Parse(image), id)
    ensures forall id :: S.Clean(B.FieldOf(r.st.data, id))
    ensures r.st.data.checksum == image[B.ChecksumOffset]
    ensures r.st.edgecount == r.st.lastEdgecount && r.st.lastEdgeTime == now
    ensures r.st.edgecount == if loadedCount == BlankCount then 0 else loadedCount
    ensures r.stores == (if B.Validate(B.Parse(image)).ok then [] else [StoreInfo(r.st.data)])
                        + (if loadedCount == BlankCount then [StoreCount(0)] else [])
    ensures r.reply == None
  {
    var checked := B.Validate(B.Parse(image));
    var count := if loadedCount == BlankCount then 0 else loadedCount;
    Effect(State(checked.value, count, count, now), None,
           (if checked.ok then [] else [StoreInfo(checked.value)])
           + (if loadedCount == BlankCount then [StoreCount(0)] else []))
  }

  /** What the record's range of a blank EEPROM reads back as. */
  function BlankImage(): (image: seq<Byte>)
    ensures |image| == B.ImageSize
  {
    seq(B.ImageSize, _ => S.Erased)
  }

  /** Every field of a blank image starts with an erased byte, and so does the checksum. */
  lemma BlankImageParses()
    ensures forall id :: B.FieldOf(B.Parse(BlankImage()), id)[0] == S.Erased
    ensures B.Parse(BlankImage()).checksum == S.Erased
  {
    var b := B.Parse(BlankImage());
    forall id
      ensures B.FieldOf(b, id)[0] == S.Erased
    {
      assert B.FieldOf(b, id)[0] == BlankImage()[S.Size * B.Index(id)];
    }
  }

  /** Validating a blank image empties every field and keeps the 0xFF checksum byte. */
  lemma BlankImageRepairs()
    ensures B.Validate(B.Parse(BlankImage())) == S.Validated(false, B.Empty().(checksum := S.Erased))
  {
    BlankImageParses();
    var b := B.Parse(BlankImage());
    var v := B.Validate(b);
    assert !S.Clean(B.FieldOf(b, B.Mfg));
    B.BlockExtensionality(v.value, B.Empty().(checksum := S.Erased));
  }

  /**
   * A blank EEPROM boots to an empty record whose checksum byte is still
   * 0xFF, so `CHECK?` reports a mismatch until the record is next written;
   * the count starts at 0 and both are stored.
   */
  lemma BlankBoot(now: int)
    ensures var r := Boot(BlankImage(), BlankCount, now);
      && (forall id :: B.FieldOf(r.st.data, id) == S.Clear())
      && r.st.data.checksum == S.Erased
      && !ChecksumMatches(r.st.data)
      && r.st.edgecount == 0
      && r.stores == [StoreInfo(r.st.data), StoreCount(0)]
  {
    BlankImageRepairs();
    B.EmptyChecksum();
    B.ChecksumIgnoresChecksumByte(B.Empty(), S.Erased);
  }

  /**
   * Booting again from what a boot left in the EEPROM repairs and stores
   * nothing and restores the same state.
   */
  lemma RebootIsQuiet(image: seq<Byte>, loadedCount: U32, now: int, later: int)
    requires |image| == B.ImageSize
    ensures var first := Boot(image, loadedCount, now);
      Boot(B.Serialize(first.st.data), first.st.edgecount, later)
      == Quiet(first.st.(lastEdgeTime := later))
  {
    var first := Boot(image, loadedCount, now);
    B.ParseSerialize(first.st.data);
    B.ValidateIdempotent(B.Parse(image));
  }

  // ---------------------------------------------------------------------
  // Edge counter

  /**
   * The falling-edge interrupt at time `now`: counted, with the 32-bit count
   * wrapping, when at least 50 ms have passed since the last counted edge;
   * otherwise ignored.
   */
  function OnFallingEdge(st: State, now: int): (r: State)
    ensures r.data == st.data && r.lastEdgecount == st.lastEdgecount
    ensures r.edgecount != st.edgecount <==> now - st.lastEdgeTime >= DebounceUs
    ensures r.edgecount != st.edgecount ==> r.lastEdgeTime == now && r.edgecount == (st.edgecount + 1) % U32Modulus
    ensures r.edgecount == st.edgecount ==> r == st
  {
    if now - st.lastEdgeTime >= DebounceUs then
      st.(lastEdgeTime := now, edgecount := (st.edgecount + 1) % U32Modulus)
    else st
  }

  /** The state after falling edges at `times`, in order. */
  function Edges(st: State, times: seq<int>): State
    decreases |times|
  {
    if times == [] then st else Edges(OnFallingEdge(st, times[0]), times[1..])
  }

  /** How many of the edges at `times` are counted, without the 32-bit wrap. */
  function Counted(st: State, times: seq<int>): (n: nat)
    ensures n <= |times|
    decreases |times|
  {
    if times == [] then 0
    else (if times[0] - st.lastEdgeTime >= DebounceUs then 1 else 0)
         + Counted(OnFallingEdge(st, times[0]), times[1..])
  }

  lemma ModAddCount(a: nat, b: nat)
    ensures (a % U32Modulus + b) % U32Modulus == (a + b) % U32Modulus
  {
    var q := a / U32Modulus;
    assert a == U32Modulus * q + a % U32Modulus;
    assert a + b == (a % U32Modulus + b) + U32Modulus * q;
  }

  /** Each counted edge moves the time of the last counted edge on by at least 50 ms. */
  lemma {:induction false} CountedEdgesAdvanceTime(st: State, times: seq<int>)
    ensures Counted(st, times) * DebounceUs <= Edges(st, times).lastEdgeTime - st.lastEdgeTime
    decreases |times|
  {
    if times != [] {
      var next, rest := OnFallingEdge(st, times[0]), times[1..];
      CountedEdgesAdvanceTime(next, rest);
      assert Edges(st, times) == Edges(next, rest);
    }
  }

  /** The count advances by the number of counted edges, modulo 2^32. */
  lemma {:induction false} CountedEdgesAdvanceCount(st: State, times: seq<int>)
    ensures Edges(st, times).edgecount == (st.edgecount + Counted(st, times)) % U32Modulus
    decreases |times|
  {
    if times != [] {
      var b := if times[0] - st.lastEdgeTime >= DebounceUs then 1 else 0;
      var next, rest := OnFallingEdge(st, times[0]), times[1..];
      CountedEdgesAdvanceCount(next, rest);
      assert Edges(st, times) == Edges(next, rest);
      assert next.edgecount == (st.edgecount + b) % U32Modulus;
      ModAddCount(st.edgecount + b, Counted(next, rest));
    }
  }

  /**
   * However the edges are spaced, each counted edge moves the time of the
   * last counted edge on by at least 50 ms, so the number counted is at most
   * the time that time moved on by, divided by 50 ms. The count ends up
   * advanced by the number counted, modulo 2^32, and by exactly that number
   * when it does not wrap.
   */
  lemma CountedEdgesAreSpaced(st: State, times: seq<int>)
    ensures var r := Edges(st, times);
      && Counted(st, times) * DebounceUs <= r.lastEdgeTime - st.lastEdgeTime
      && r.edgecount == (st.edgecount + Counted(st, times)) % U32Modulus
    ensures st.edgecount + |times| < U32Modulus ==>
      var r := Edges(st, times);
      && st.edgecount <= r.edgecount <= st.edgecount + |times|
      && r.edgecount - st.edgecount == Counted(st, times)
      && (r.edgecount - st.edgecount) * DebounceUs <= r.lastEdgeTime - st.lastEdgeTime
  {
    CountedEdgesAdvanceTime(st, times);
    CountedEdgesAdvanceCount(st, times);
    var n := Counted(st, times);
    if st.edgecount + |times| < U32Modulus {
      assert (st.edgecount + n) % U32Modulus == st.edgecount + n;
    }
  }

  /** The time of the last counted edge is the starting one or one of the edges' times. */
  lemma {:induction false} LastEdgeTimeIsAnEdge(st: State, times: seq<int>)
    ensures var t := Edges(st, times).lastEdgeTime;
      t == st.lastEdgeTime || t in times
    decreases |times|
  {
    if times != [] {
      LastEdgeTimeIsAnEdge(OnFallingEdge(st, times[0]), times[1..]);
    }
  }

  // ---------------------------------------------------------------------
  // Idle poll

  /** On a poll that times out, the count is stored when it differs from the one last stored. */
  function Flush(st: State): (r: Effect)
    ensures r.st.lastEdgecount == r.st.edgecount == st.edgecount
    ensures r.st.data == st.data && r.st.lastEdgeTime == st.lastEdgeTime
    ensures r.stores != [] <==> st.edgecount != st.lastEdgecount
    ensures r.stores != [] ==> r.stores == [StoreCount(st.edgecount)]
    ensures r.reply == None
  {
    if st.edgecount != st.lastEdgecount then
      Effect(st.(lastEdgecount := st.edgecount), None, [StoreCount(st.edgecount)])
    else Quiet(st)
  }

  /** A second poll right after the first stores nothing. */
  lemma FlushIdempotent(st: State)
    ensures Flush(Flush(st).st) == Quiet(Flush(st).st)
  {
  }

  // ---------------------------------------------------------------------
  // Line assembler

  datatype LineBuffer = LineBuffer(buf: seq<Byte>, idx: nat)

  /** `rdbuf` and `idx`: 512 bytes and a write position inside them. */
  type Assembler = a: LineBuffer | |a.buf| == BufferSize && a.idx < BufferSize
    witness LineBuffer(Zeros(BufferSize), 0)

  /** What `getchar_timeout_us` gives: a byte, or nothing within the timeout. */
  datatype Input = Timeout | Char(c: Byte)

  /** The C string at the start of `b`: the bytes before its first zero. */
  function CString(b: seq<Byte>): (s: seq<Byte>)
    ensures s <= b
    ensures forall i :: 0 <= i < |s| ==> s[i] != 0
    ensures |s| < |b| ==> b[|s|] == 0
  {
    b[..FirstIn(b, {0})]
  }

  /** What one received byte does to the assembler, and the message a return hands over. */
  datatype Received = Received(line: Assembler, msg: Option<seq<Byte>>)

  /**
   * One received byte: a return terminates the buffer at the write position,
   * hands the C string in the buffer over as a message and starts a new
   * line; a printable byte is stored and the position moves on, wrapping
   * after 512 bytes; anything else is dropped.
   */
  function Receive(a: Assembler, c: Byte): (r: Received)
    ensures c == Return ==> r.line.idx == 0 && r.msg.Some?
    ensures c != Return ==> r.msg == None
    ensures c != Return && IsPrint(c) ==> r.line.idx == (a.idx + 1) % BufferSize && r.line.buf[a.idx] == c
    ensures c != Return && !IsPrint(c) ==> r.line == a
  {
    if c == Return then
      var b := a.buf[a.idx := 0];
      Received(LineBuffer(b, 0), Some(CString(b)))
    else if IsPrint(c) then
      Received(LineBuffer(a.buf[a.idx := c], (a.idx + 1) % BufferSize), None)
    else Received(a, None)
  }

  /** The assembler after bytes `cs`, none of them a return. */
  function Feed(a: Assembler, cs: seq<Byte>): Assembler
    requires forall i :: 0 <= i < |cs| ==> cs[i] != Return
    decreases |cs|
  {
    if cs == [] then a else Receive(Feed(a, cs[..|cs| - 1]), cs[|cs| - 1]).line
  }

  /**
   * The assembler holds `line`: the write position is the line's length
   * modulo 512, and the bytes before it are the line's last that many bytes.
   */
  predicate Holds(a: Assembler, line: seq<Byte>) {
    && a.idx == |line| % BufferSize
    && a.buf[..a.idx] == line[|line| - a.idx..]
  }

  lemma ModStep(n: nat)
    ensures (n + 1) % BufferSize == (n % BufferSize + 1) % BufferSize
  {
    var q := n / BufferSize;
    assert n == q * BufferSize + n % BufferSize;
    if n % BufferSize + 1 == BufferSize {
      assert n + 1 == (q + 1) * BufferSize;
    } else {
      assert n + 1 == q * BufferSize + (n % BufferSize + 1);
    }
  }

  /** Storing one more printable byte keeps the assembler holding the line grown by it. */
  lemma HoldsStep(before: Assembler, init: seq<Byte>, c: Byte)
    requires Holds(before, init) && IsPrint(c)
    ensures Holds(Receive(before, c).line, init + [c])
  {
    var after := Receive(before, c).line;
    var line := init + [c];
    ModStep(|init|);
    if after.idx != 0 {
      assert after.idx == before.idx + 1;
      assert after.buf[..before.idx] == before.buf[..before.idx];
      assert after.buf[..after.idx] == after.buf[..before.idx] + [c];
      assert line[|line| - after.idx..] == init[|init| - before.idx..] + [c];
    }
  }

  /** Feeding printable bytes to an assembler at the start of its buffer leaves it holding them. */
  lemma {:induction false} FeedHolds(a: Assembler, line: seq<Byte>)
    requires a.idx == 0
    requires AllPrintable(line)
    ensures Holds(Feed(a, line), line)
    decreases |line|
  {
    if line != [] {
      var init, c := line[..|line| - 1], line[|line| - 1];
      assert AllPrintable(init);
      FeedHolds(a, init);
      HoldsStep(Feed(a, init), init, c);
      assert init + [c] == line;
    }
  }

  /**
   * A return after the assembler holds a printable line hands over the
   * line's last `|line| % 512` bytes: the whole line when it is shorter than
   * the buffer, and nothing but what came after the last wrap otherwise.
   */
  lemma ReturnDeliversLine(a: Assembler, line: seq<Byte>)
    requires Holds(a, line) && AllPrintable(line)
    ensures Receive(a, Return).msg == Some(line[|line| - |line| % BufferSize..])
  {
    var b := a.buf[a.idx := 0];
    forall j | 0 <= j < a.idx
      ensures b[j] !in {0}
    {
      assert b[j] == a.buf[..a.idx][j] == line[|line| - a.idx + j];
    }
    FirstInAt(b, {0}, a.idx);
    assert b[..a.idx] == a.buf[..a.idx];
  }

  /** A printable line shorter than the buffer, typed from the start of a line and ended with a return, arrives whole. */
  lemma ShortLineArrivesWhole(a: Assembler, line: seq<Byte>)
    requires a.idx == 0 && AllPrintable(line) && |line| < BufferSize
    ensures Receive(Feed(a, line), Return).msg == Some(line)
    ensures Receive(Feed(a, line), Return).line.idx == 0
  {
    var fed := Feed(a, line);
    FeedHolds(a, line);
    ReturnDeliversLine(fed, line);
    assert |line| % BufferSize == |line|;
    assert line[0..] == line;
  }

  // ---------------------------------------------------------------------
  // Main loop

  /** The firmware's whole state: its variables and the line assembler. */
  datatype Machine = Machine(st: State, line: Assembler)

  /** What one poll of the main loop did. */
  datatype Polled = Polled(m: Machine, reply: Option<Reply>, stores: seq<Store>)

  /**
   * One turn of the main loop: a timeout stores a changed count; a byte goes
   * to the line assembler, and a completed line is handled as a message.
   */
  function Poll(m: Machine, input: Input, locked: bool, boardId: seq<Byte>): (r: Polled)
    ensures input.Timeout? ==> r.m.line == m.line && r.reply == None
    ensures input.Timeout? ==> r.m.st.lastEdgecount == r.m.st.edgecount
    ensures input.Timeout? ==> r.m.st == m.st.(lastEdgecount := m.st.edgecount)
    ensures input.Timeout? ==>
      r.stores == if m.st.edgecount != m.st.lastEdgecount then [StoreCount(m.st.edgecount)] else []
    ensures input.Timeout? ==> r.m.st == Flush(m.st).st && r.stores == Flush(m.st).stores
    ensures input.Char? && input.c != Return ==> r.m.st == m.st && r.stores == [] && r.reply == None
    ensures input.Char? && input.c != Return ==> r.m.line == Receive(m.line, input.c).line
    ensures input == Char(Return) ==>
      && r.m.line.idx == 0
      && Effect(r.m.st, r.reply, r.stores)
         == HandleSerialMessage(m.st, CString(m.line.buf[m.line.idx := 0]), locked, boardId)
  {
    match input
    case Timeout =>
      var f := Flush(m.st);
      Polled(Machine(f.st, m.line), None, f.stores)
    case Char(c) =>
      var rx := Receive(m.line, c);
      if rx.msg.Some? then
        var e := HandleSerialMessage(m.st, rx.msg.value, locked, boardId);
        Polled(Machine(e.st, rx.line), e.reply, e.stores)
      else Polled(Machine(m.st, rx.line), None, [])
  }

  /** The machine after polls that each receive one of the bytes `cs`, none of them a return. */
  function PollChars(m: Machine, cs: seq<Byte>, locked: bool, boardId: seq<Byte>): Machine
    requires forall i :: 0 <= i < |cs| ==> cs[i] != Return
    decreases |cs|
  {
    if cs == [] then m
    else Poll(PollChars(m, cs[..|cs| - 1], locked, boardId), Char(cs[|cs| - 1]), locked, boardId).m
  }

  /** Polls that receive bytes other than a return only feed the line assembler. */
  lemma {:induction false} PollCharsFeeds(m: Machine, cs: seq<Byte>, locked: bool, boardId: seq<Byte>)
    requires forall i :: 0 <= i < |cs| ==> cs[i] != Return
    ensures PollChars(m, cs, locked, boardId) == Machine(m.st, Feed(m.line, cs))
    decreases |cs|
  {
    if cs != [] {
      PollCharsFeeds(m, cs[..|cs| - 1], locked, boardId);
    }
  }

  /**
   * A printable line shorter than the buffer, polled in byte by byte from the
   * start of a line and followed by a return, is handled as a message exactly
   * as it was typed.
   */
  lemma PollHandlesLine(m: Machine, line: seq<Byte>, locked: bool, boardId: seq<Byte>)
    requires m.line.idx == 0 && AllPrintable(line) && |line| < BufferSize
    ensures var r := Poll(PollChars(m, line, locked, boardId), Char(Return), locked, boardId);
      && r.m.line.idx == 0
      && Effect(r.m.st, r.reply, r.stores) == HandleSerialMessage(m.st, line, locked, boardId)
  {
    PollCharsFeeds(m, line, locked, boardId);
    ShortLineArrivesWhole(m.line, line);
  }

  // ---------------------------------------------------------------------
  // Storage requests

  /** The EEPROM instance: the bus is present and the A2 pin is low. */
  const Eeprom: E.Eeprom := E.Eeprom(true, false)

  /** The address and length of the write a store request makes. */
  function StoreRange(s: Store): (nat, nat) {
    match s
    case StoreInfo(_) => (DeviceInfoAddr, B.ImageSize)
    case StoreCount(_) => (EdgeCountAddr, CountSize)
  }

  /**
   * Every store request passes the driver's checks (the start-up reads use
   * the same two ranges); the record goes out in three page writes of 256,
   * 256 and 129 bytes and the count in one.
   */
  lemma StoreRequestsFitTheChip(s: Store)
    ensures E.ArgsAccepted(Eeprom, StoreRange(s).0, true, StoreRange(s).1)
    ensures s.StoreInfo? ==> E.Chunks(StoreRange(s).0, StoreRange(s).1)
                             == [E.Chunk(0, 256), E.Chunk(256, 256), E.Chunk(512, 129)]
    ensures s.StoreCount? ==> E.Chunks(StoreRange(s).0, StoreRange(s).1) == [E.Chunk(EdgeCountAddr, CountSize)]
  {
    E.RecordImageSplit();
    assert E.Chunks(EdgeCountAddr + CountSize, 0) == [];
  }

  // ---------------------------------------------------------------------
  // The query reply as printed

  /**
   * What `printf("%s\n", field->Get().data())` prints: the bytes of the
   * record image from the field's offset up to the first zero byte, which
   * ignores the length `Get` computed. `None` when no zero byte follows
   * inside the record, so the output would depend on memory after it.
   */
  function QueryTextAsWritten(b: B.Block, id: B.FieldId): (r: Option<seq<Byte>>)
    ensures var off := S.Size * B.Index(id); var image := B.Serialize(b);
      && off < |image|
      && (r.Some? ==> off + |r.value| < |image| && r.value == image[off..][..|r.value|] && image[off + |r.value|] == 0)
      && (r.None? ==> 0 !in image[off..])
    ensures r.Some? ==> 0 !in r.value
  {
    var image := B.Serialize(b);
    var rest := image[S.Size * B.Index(id)..];
    var n := FirstIn(rest, {0});
    if n == |rest| then None
    else
      assert forall i :: 0 <= i < n ==> rest[..n][i] != 0;
      Some(rest[..n])
  }

  /**
   * A field that fills all 64 bytes without a terminator (which an image
   * written by other means can hold, and which boot validation keeps) is
   * printed followed by the next field's text.
   */
  lemma UnterminatedFieldOverruns()
    ensures var full := seq(S.Size, _ => 0x41);
      var b := B.WithField(B.WithField(B.Empty(), B.Mfg, full), B.Name, S.Set([0x42]));
      && B.Validate(b).ok
      && S.Get(B.FieldOf(b, B.Mfg)) == full
      && QueryTextAsWritten(b, B.Mfg) == Some(full + [0x42])
  {
    var full: seq<Byte> := seq(S.Size, _ => 0x41);
    var name := S.Set([0x42]);
    var b := B.WithField(B.WithField(B.Empty(), B.Mfg, full), B.Name, name);
    assert b.fields[0] == full && b.fields[1] == name;
    forall id
      ensures S.Clean(B.FieldOf(b, id))
    {
    }
    assert FirstIn(full, S.Stops) == S.Size by {
      FirstInAt(full, S.Stops, S.Size);
    }
    var image := B.Serialize(b);
    var rest := image[0..];
    assert name[0] == 0x42 && name[1] == 0;
    forall j | 0 <= j < S.Size
      ensures rest[j] == 0x41 && rest[S.Size + j] == name[j]
    {
      assert image[S.Size * 0 + j] == b.fields[0][j];
      assert image[S.Size * 1 + j] == b.fields[1][j];
    }
    forall j | 0 <= j < S.Size + 1
      ensures rest[j] !in {0}
    {
      if j == S.Size {
        assert rest[S.Size + 0] == name[0];
      }
    }
    assert rest[S.Size + 1] == name[1];
    FirstInAt(rest, {0}, S.Size + 1);
    assert rest[..S.Size + 1] == full + [0x42];
  }

  /** A field that holds a terminator is printed exactly as `Get` reads it. */
  lemma TerminatedFieldPrintsText(b: B.Block, id: B.FieldId)
    requires S.Clean(B.FieldOf(b, id)) && 0 in B.FieldOf(b, id)
    ensures QueryTextAsWritten(b, id) == Some(S.Get(B.FieldOf(b, id)))
  {
    var f := B.FieldOf(b, id);
    var text := S.Get(f);
    var image := B.Serialize(b);
    var off := S.Size * B.Index(id);
    var rest := image[off..];
    forall j | 0 <= j < S.Size
      ensures rest[j] == f[j]
    {
      assert image[S.Size * B.Index(id) + j] == b.fields[B.Index(id)][j];
    }
    FirstInAt(rest, {0}, |text|);
    assert rest[..|text|] == text;
  }
}

=== FILE: prelude.dfy ===
/** Shared vocabulary of the model: bytes, optional values, byte searches and sums. */
module Prelude {

  /** One unsigned 8-bit value (a C `uint8_t`, or a `char` read as unsigned). */
  type Byte = b: int | 0 <= b < 256

  /** One unsigned 32-bit value (a C `uint32_t`, and `size_t` on the 32-bit target). */
  type U32 = x: int | 0 <= x < 0x1_0000_0000

  const U32Modulus: int := 0x1_0000_0000

  /** Stands in for a pointer that may be null. */
  datatype Option<+T> = None | Some(value: T)

  function Min(a: int, b: int): (m: int)
    ensures m <= a && m <= b
    ensures m == a || m == b
  {
    if a <= b then a else b
  }

  /** `n` zero bytes. */
  function Zeros(n: nat): (r: seq<Byte>)
    ensures |r| == n
    ensures forall i :: 0 <= i < n ==> r[i] == 0
  {
    seq(n, _ => 0)
  }

  /** C's `isprint` in the "C" locale: space through tilde. */
  predicate IsPrint(c: int) {
    0x20 <= c <= 0x7E
  }

  /** The bytes of a 7-bit ASCII text literal. */
  function Ascii(s: string): (r: seq<Byte>)
    requires forall i :: 0 <= i < |s| ==> s[i] as int < 128
    ensures |r| == |s|
    ensures forall i :: 0 <= i < |s| ==> r[i] == s[i] as int
  {
    seq(|s|, i requires 0 <= i < |s| => s[i] as int)
  }

  /**
   * Index of the first byte of `s` that belongs to `stops`, or `|s|` when there
   * is none: `find_first_of` with `npos` written as the length.
   */
  function FirstIn(s: seq<Byte>, stops: set<Byte>): (i: nat)
    ensures i <= |s|
    ensures forall j :: 0 <= j < i ==> s[j] !in stops
    ensures i < |s| ==> s[i] in stops
  {
    if s == [] then 0
    else if s[0] in stops then 0
    else 1 + FirstIn(s[1..], stops)
  }

  /** `FirstIn` is characterised by its postconditions: any position meeting them is it. */
  lemma FirstInAt(s: seq<Byte>, stops: set<Byte>, k: nat)
    requires k <= |s|
    requires forall j :: 0 <= j < k ==> s[j] !in stops
    requires k < |s| ==> s[k] in stops
    ensures FirstIn(s, stops) == k
  {
  }

  /** The exact (unbounded) sum of a byte sequence. */
  function Total(s: seq<Byte>): nat {
    if s == [] then 0 else s[0] + Total(s[1..])
  }

  lemma {:induction false} TotalAppend(a: seq<Byte>, b: seq<Byte>)
    ensures Total(a + b) == Total(a) + Total(b)
  {
    if a == [] {
      assert a + b == b;
    } else {
      assert (a + b)[1..] == a[1..] + b;
      TotalAppend(a[1..], b);
    }
  }

  lemma {:induction false} TotalZeros(n: nat)
    ensures Total(Zeros(n)) == 0
  {
    if n > 0 {
      assert Zeros(n)[1..] == Zeros(n - 1);
      TotalZeros(n - 1);
    }
  }

  /**
   * An 8-bit accumulator that adds every byte of `s` to `acc`, wrapping at 256
   * after each addition, as a `uint8_t sum; sum += c;` loop does.
   */
  function WrappingSum(acc: Byte, s: seq<Byte>): Byte
    decreases |s|
  {
    if s == [] then acc else WrappingSum((acc + s[0]) % 256, s[1..])
  }

  /** Wrapping after every step gives the exact sum reduced modulo 256 once. */
  lemma {:induction false} WrappingSumIsTotal(acc: Byte, s: seq<Byte>)
    ensures WrappingSum(acc, s) == (acc + Total(s)) % 256
    decreases |s|
  {
    if s != [] {
      WrappingSumIsTotal((acc + s[0]) % 256, s[1..]);
      calc {
        WrappingSum(acc, s);
        ((acc + s[0]) % 256 + Total(s[1..])) % 256;
        { ModAddLeft(acc + s[0], Total(s[1..])); }
        (acc + s[0] + Total(s[1..])) % 256;
      }
    }
  }

  lemma ModAddLeft(a: nat, b: nat)
    ensures (a % 256 + b) % 256 == (a + b) % 256
  {
    var q := a / 256;
    assert a == 256 * q + a % 256;
    assert a + b == (a % 256 + b) + 256 * q;
  }
}
